=== FILE: README.md ===
# Perceptron Story: a verified model of the training engine

This project models the computational core of the Perceptron Story
educational site in Dafny and proves properties of it. The core is:

- the **Training Lab** perceptron engine:
  - the prediction rule: +1 iff w1·x + w2·y + b > 0, so a sum of exactly 0 gives -1;
  - the misclassification scan;
  - the single perceptron-rule step, and auto-training as a bounded loop of steps;
  - reset and regenerate;
  - the dataset generator: AND/OR corners, or random points labelled by a hidden separator, with label noise;
  - the decision-boundary segment;
- the **XOR** illustration and its "no line exists" claim;
- the **AND/OR** truth tables and their hard-coded boundary segments;
- the **interactive diagram**'s boundary segment, with its 0.05 divisor clamp;
- the **gradient-descent** toy: the eager 20-step trajectory on L = x² + y², its path and its loss bars;
- the **weight-trajectory** chart and the **error-convergence** chart: scaling, paths and markers.

Every JavaScript number is a Dafny `real`. Every `Math.random()` call is an
explicit input, a real that callers draw from [0, 1):

- `SeparatorDraw`: the hidden separator's three draws;
- `PointDraw`: the x, y and flip draws of one random point;
- `InitDraw`: the weight and bias draws of reset and regenerate;
- `NoiseDraw`: the two gradient kicks of one stochastic step.

The React state of the Training Lab is one immutable `TrainerState` record.
`Step`, `AutoTrain`, `Reset` and `GenerateData` map it to a new record. SVG
paths are sequences of `MoveTo`/`LineTo` commands, not strings.

Modules, one per component:

| module | file | models |
|---|---|---|
| `Perceptron` | perceptron.dfy | the prediction rule, labels, samples, segments |
| `Datasets` | datasets.dfy | the `DataPoint` type and `generateProblemData` |
| `Trainer` | trainer.dfy | the trainer state machine and `getLinePoints` of the Training Lab |
| `Xor` | xor.dfy | components/xor-problem.tsx |
| `AndOr` | and_or.dfy | components/and-or-demo.tsx |
| `Diagram` | diagram.dfy | components/interactive-diagram.tsx |
| `Descent` | descent.dfy | components/GradientDescentVis.tsx |
| `Charts` | charts.dfy | path commands and `Math.min`/`Math.max` over a list |
| `WeightPlot` | weight_plot.dfy | components/weight-trajectory-plot.tsx |
| `ErrorPlot` | error_plot.dfy | components/error-convergence-plot.tsx |

The trainer's bookkeeping invariant `Trainer.Inv` says:

- `trainingHistory` and `weightHistory` both have `currentEpoch` entries;
- record k has epoch k, and trajectory entry k has epoch k + 1 and the record's new weights;
- each record starts from the previous record's new weights and bias;
- the last record ends at the current parameters;
- every record has error ±2 and a misclassified count of at least 1;
- `hasConverged` is only true when no point is misclassified.

Reset and regenerate establish `Inv`, and every step preserves it. So does
a click on the step-history strip, which only moves `currentStep`.

`currentStep` selects the record the "Step N Calculations" panel shows.
`Trainer.Focused` says it indexes the newest record: `currentStep = currentEpoch - 1`.
Reset, regenerate and stepping keep the panel focused. Picking an older
history step unfocuses it. The next step then bumps `currentStep` from the
picked index, so the panel shows the record after the picked one, not the
record that step added.

Three behaviours of the code are easy to miss, and the model keeps each of them:

- the diagram's divisor turns every |w2| < 0.05 into +0.05, whatever the sign of w2;
- reset takes no parameters and always draws fresh weights and bias;
- a recorded error is always +2 or -2, never 0, because only misclassified points are recorded.

## Model

| member | source | states |
|---|---|---|
| Perceptron.Output | components/training-lab.tsx:124-130 | The prediction is +1 exactly when w1·x + w2·y + b is strictly positive, and -1 exactly when it is ≤ 0 |
| Perceptron.BoundaryPredictsNegative | components/training-lab.tsx:126-127 | A point on the boundary is predicted -1, by (w, b) and also by (-w, -b): the threshold is not symmetric at zero |
| Perceptron.NegationSwapsPrediction | components/training-lab.tsx:126-127 | Off the boundary, negating all three parameters flips the prediction |
| Perceptron.Flip | components/training-lab.tsx:94 | Flipping a label always gives the other class |
| Datasets.Spread | components/training-lab.tsx:83-89 | `Math.random() * 2 - 1` maps a draw in [0, 1) into [-1, 1) |
| Datasets.GenerateProblemData | components/training-lab.tsx:58-107 | AND and OR ignore count, noise and draws and give the four (±0.7, ±0.7) corners. Random mode gives max(points, 0) points. No generated point is flagged misclassified |
| Datasets.ShouldFlip | components/training-lab.tsx:93 | No flip at noise ≤ 0. Every point is flipped at noise ≥ 100. A flip needs positive noise and a flip draw below noise/100 |
| Datasets.RandomPoint | components/training-lab.tsx:87-101 | A random point is never flagged and lies in [-1, 1) × [-1, 1). Its label differs from the hidden separator's prediction exactly when the point is flipped |
| Datasets.RandomPointsInSquare | components/training-lab.tsx:87-89 | Every random point lies in [-1, 1) × [-1, 1) |
| Datasets.FlipIffNoiseDraw | components/training-lab.tsx:90-94 | A label differs from the hidden separator's >0 prediction exactly when noise > 0 and the flip draw is below noise/100 |
| Datasets.NoNoiseSeparable | components/training-lab.tsx:83-94 | With noise 0, the hidden separator predicts every label, so it misclassifies no point |
| Datasets.AndCornersSeparable | components/training-lab.tsx:62-70 | In the AND corners only (0.7, 0.7) is +1, and the line x + y = 0.7 classifies all four |
| Datasets.OrCornersSeparable | components/training-lab.tsx:72-80 | In the OR corners only (-0.7, -0.7) is -1, and the line x + y = -0.7 classifies all four |
| Trainer.Scan | components/training-lab.tsx:133-138 | The scan keeps length, order, coordinates and labels. Each flag is set iff the prediction differs from the label |
| Trainer.ScanIdempotent | components/training-lab.tsx:133-138 | Scanning a scanned list changes nothing, because the stored flag is never read |
| Trainer.Misclassified | components/training-lab.tsx:143 | The filter keeps exactly the flagged points and never grows the list |
| Trainer.MisclassifiedFirst | components/training-lab.tsx:150-151 | The lowest-index flagged point heads the filtered list |
| Trainer.MisclassifiedCountIsMisIndices | components/training-lab.tsx:143 | The filtered length equals the number of dataset indices whose prediction is wrong |
| Trainer.ScanEmptyIffClassifies | components/training-lab.tsx:142-145 | The filtered scan is empty iff the parameters predict every label |
| Trainer.ScanHeadMispredicts | components/training-lab.tsx:150-151 | The chosen point is a flagged copy of a dataset point whose prediction is wrong |
| Trainer.Update | components/training-lab.tsx:156-189 | The update branch. Its behaviour is stated by `Trainer.UpdateAppends` and, through it, by `Trainer.Step` |
| Trainer.UpdateAppends | components/training-lab.tsx:156-189 | See the Step row: one record, the learning rule, the counters. The record keeps the chosen point and the scan's count |
| Trainer.Step | components/training-lab.tsx:141-192 | The state is left alone except `hasConverged := true` iff nothing is misclassified. Otherwise the step appends one record: epoch = old epoch, old/new weights and bias, error = label − output = ±2, output = the flipped label, count ≥ 1. It also appends one trajectory entry with epoch old + 1 and bumps epoch and step by 1. It applies w' = w + η·e·(x, y) and b' = b + η·e. Data, rate and converged flag are unchanged |
| Trainer.StepUsesFirstMisclassified | components/training-lab.tsx:142-182 | The record's point is the lowest-index misclassified point. Its count is the number of misclassified points before the update |
| Trainer.StepFirstOnData | components/training-lab.tsx:142-151 | Whenever some point is misclassified, the record a step appends carries a flagged copy of the first dataset point the step's parameters get wrong |
| Trainer.ConvergedStepIdempotent | components/training-lab.tsx:145-148 | With nothing misclassified, a step sets converged. Stepping again changes nothing |
| Trainer.ZeroRateRecordsWithoutMoving | components/training-lab.tsx:165-171 | At rate 0 a step still appends a record, but weights and bias stay put |
| Trainer.StepPreservesInv | components/training-lab.tsx:174-189 | Every step preserves the bookkeeping invariant `Inv` described above |
| Trainer.PanelOf | components/training-lab.tsx:244 | The panel shows a record exactly when `currentStep` is a valid history index, and what it shows is a record of the history |
| Trainer.SelectStep | components/training-lab.tsx:533-546 | Picking history step idx makes the panel show record idx and changes nothing else. `Inv` is kept. The panel stays focused only if idx is the newest record |
| Trainer.FocusedShowsNewest | components/training-lab.tsx:244 | While focused, the panel shows the newest record |
| Trainer.StepKeepsFocus | components/training-lab.tsx:186-189 | From a focused state, an updating step stays focused, so the panel shows the record the step just added |
| Trainer.StepAfterSelectShowsOlderRecord | components/training-lab.tsx:186-189 | After picking an older step idx, the next step bumps `currentStep` to idx + 1. The panel (line 244) then shows record idx + 1, which is not the newest record |
| Trainer.AutoTrain | components/training-lab.tsx:195-212 | Auto-training appends between 0 and n records and keeps the old history as a prefix. Unless it ends converged it performed exactly n updates. It ends converged only if it started so or its final parameters classify every point. The appended records form a chain (`RunFrom`): each record's point was mispredicted by that record's old parameters, which moved by rate · error · (x, y, 1). The chain leads from the starting weights and bias to the final ones, and with no record appended they are unchanged. Each appended record's point is a flagged copy of the first dataset point its old parameters get wrong (`OnData`). It preserves `Inv`, the data and the rate |
| Trainer.Reset | components/training-lab.tsx:215-224 | Reset gives epoch 0, empty histories and not converged, so `Inv` holds. The panel is focused and hidden. Data and rate are kept. Weights and bias lie in [-1, 1) |
| Trainer.GenerateData | components/training-lab.tsx:110-121 | Regenerate gives the generator's dataset and otherwise exactly the state reset gives with the same draws: epoch 0, empty histories, not converged, `Inv`, focused with a hidden panel, the rate kept, and weights and bias in [-1, 1) |
| Trainer.Mounted | components/training-lab.tsx:227-229 | Mounting regenerates from `Trainer.Initial`, the state defaults of lines 40-50: no points, weights (0.3, -0.5), bias 0.1, rate 0.1, epoch 0, empty histories, not converged and step -1. After mount there are 20 random noiseless points that the hidden separator classifies. The rate is still 0.1, `Inv` holds, the panel is focused and hidden, and the defaults' weights and bias are replaced by draws in [-1, 1) |
| Trainer.LinePoints | components/training-lab.tsx:232-239 | If w2 = 0 the segment is the fixed (-1,0)–(1,0). Otherwise the endpoints have x = ∓1.2 and both lie on w1·x + w2·y + b = 0 |
| Trainer.FallbackSegmentOffBoundary | components/training-lab.tsx:233 | The w2 = 0 fallback is not the boundary unless w1 = 0 too |
| Xor.XorLabelsAreExclusiveOr | components/xor-problem.tsx:7-10 | The four inputs are 0/1 pairs, and each label is +1 iff exactly one coordinate is 1 |
| Xor.XorBalanced | components/xor-problem.tsx:7-10 | Two labels are +1 and two are -1 |
| Xor.XorNotSeparable | components/xor-problem.tsx:19-20 | No (w1, w2, b) predicts all four XOR labels with the >0 rule |
| Xor.XorStepAlwaysUpdates | components/training-lab.tsx:145-148 | On the XOR points every step updates and never sets converged |
| Xor.XorAutoTrainRunsAllSteps | components/xor-problem.tsx:19-25 | On the XOR points, auto-training for n steps performs exactly n updates and never converges |
| AndOr.AndOnlyTopRightPositive | components/and-or-demo.tsx:14-19 | In the AND table only (1,1) is +1 |
| AndOr.OrOnlyOriginNegative | components/and-or-demo.tsx:21-26 | In the OR table only (0,0) is -1 |
| AndOr.TablesDifferOnlyOnMixedInputs | components/and-or-demo.tsx:14-26 | Both tables list the same inputs in the same order. Their labels differ exactly at (1,0) and (0,1) |
| AndOr.AndSegmentSeparates | components/and-or-demo.tsx:146 | The AND segment lies on x + y = 1.7, and that line strictly separates (1,1) from the other three points |
| AndOr.OrSegmentSeparates | components/and-or-demo.tsx:158 | The OR segment lies on x + y = 0.5, and that line strictly separates (0,0) from the other three points |
| AndOr.AndTableFirstStep | components/training-lab.tsx:156-171 | Worked example: AND table, zero parameters, rate 0.1. The step picks (1,1) with output -1, error 2 and count 1, and moves w1, w2 and b to 0.2 |
| Diagram.Divisor | components/interactive-diagram.tsx:19 | The divisor is 0.05 when \|w2\| < 0.05 and w2 otherwise. It is never 0 and its magnitude is at least 0.05 |
| Diagram.ClampIgnoresSign | components/interactive-diagram.tsx:19 | A small negative w2 is clamped to +0.05, not -0.05 |
| Diagram.LinePoints | components/interactive-diagram.tsx:17-25 | The endpoints always have x = -1.2 and x = 1.2. When \|w2\| ≥ 0.05 they lie on the boundary. Otherwise they lie on the line with w2 replaced by 0.05 |
| Diagram.Rendered | components/interactive-diagram.tsx:51-52 | The y-flip into SVG coordinates. `Diagram.RenderedOnScreenBoundary` states where the flipped endpoints lie |
| Diagram.NormalTip | components/interactive-diagram.tsx:63 | The normal indicator's tip. `Diagram.RenderedOnScreenBoundary` and `Diagram.NormalPerpendicularToRenderedLine` state its direction |
| Diagram.RenderedOnScreenBoundary | components/interactive-diagram.tsx:51-63 | With both y values negated, the rendered endpoints lie on w1·x − w2·y + b = 0. The normal tip is half of (w1, −w2) |
| Diagram.NormalPerpendicularToRenderedLine | components/interactive-diagram.tsx:51-63 | In screen coordinates the normal indicator is perpendicular to the drawn boundary |
| Diagram.AgreesWithTrainingLab | components/interactive-diagram.tsx:17-25 | For \|w2\| ≥ 0.05 the diagram's segment equals the Training Lab's |
| Diagram.DisagreesWithTrainingLabAtZero | components/training-lab.tsx:233 | For w2 = 0 the two helpers draw different segments |
| Descent.Kick | components/GradientDescentVis.tsx:40-45 | The stochastic kick (r − 0.5)·80 of a draw in [0, 1) lies in [−40, 40) |
| Descent.Advance | components/GradientDescentVis.tsx:37-49 | A step's loss is x² + y² of its new point. With no noise, both coordinates are scaled by (1 − 2·lr) |
| Descent.RunSimulation | components/GradientDescentVis.tsx:26-52 | The trajectory has 21 entries, starting at (−80, −70) with loss 11300. Each later entry is one update of the previous one. Every loss is x² + y² |
| Descent.BatchStepScales | components/GradientDescentVis.tsx:37-49 | A batch step multiplies x and y by (1 − 2·lr) |
| Descent.BatchStepDescends | components/GradientDescentVis.tsx:37-51 | For lr in [0.01, 0.2], a batch step from the negative quadrant moves strictly towards 0 on both axes and lowers the loss |
| Descent.BatchDescends | components/GradientDescentVis.tsx:34-52 | For lr in [0.01, 0.2], every batch step moves \|x\| and \|y\| strictly down, with the coordinates staying negative, and the loss strictly decreases |
| Descent.BarHeight | components/GradientDescentVis.tsx:225 | A bar's height is at most 100, and it lies in [0, 100] for a non-negative loss |
| Descent.StartBarIsFull | components/GradientDescentVis.tsx:225 | The start point's bar is exactly 100 |
| Descent.PathData | components/GradientDescentVis.tsx:75-78 | The path has one command per entry: a move to the first point, then only lines, each point offset by (+100, +100) |
| Descent.Reset | components/GradientDescentVis.tsx:69-72 | After reset the path is empty and the widget is not running |
| Descent.StartRun | components/GradientDescentVis.tsx:55-56 | Starting a run shows exactly one move, to the trajectory's first point plus the (+100, +100) offset. The widget is running (set at line 27) |
| Descent.StartRunShowsStart | components/GradientDescentVis.tsx:56 | For a computed trajectory, the first shown path is a single move to (20, 30): the start (−80, −70) of line 23 plus the offset |
| Charts.SeqMin | components/weight-trajectory-plot.tsx:20-21 | The minimum is an element of the list and no element is below it |
| Charts.SeqMax | components/weight-trajectory-plot.tsx:20-21 | The maximum is an element of the list and no element is above it |
| WeightPlot.AllW1 | components/weight-trajectory-plot.tsx:18 | The w1 axis values are all history w1 values followed by the current w1, so the list is never empty |
| WeightPlot.AllW2 | components/weight-trajectory-plot.tsx:19 | The same for w2 |
| WeightPlot.ComputeScales | components/weight-trajectory-plot.tsx:17-23 | Both ranges are at least 2, and every plotted value lies strictly between min and min + range, so scaling never divides by zero |
| WeightPlot.ScaleX | components/weight-trajectory-plot.tsx:25 | A w1 strictly inside (min, min + range) maps strictly inside (0, W) |
| WeightPlot.ScaleY | components/weight-trajectory-plot.tsx:26 | A w2 strictly inside (min, min + range) maps strictly inside (0, H) |
| WeightPlot.PlottedPointsInsideBox | components/weight-trajectory-plot.tsx:25-26 | Every plotted w1, history or current, maps into (0, W). Every plotted w2 maps into (0, H) |
| WeightPlot.ScalesMonotone | components/weight-trajectory-plot.tsx:25-26 | scaleX is strictly increasing and scaleY strictly decreasing |
| WeightPlot.Path | components/weight-trajectory-plot.tsx:29-31 | The path is empty iff the history is. Otherwise it is one move to the first scaled point, then n − 1 lines in history order |
| WeightPlot.Opacity | components/weight-trajectory-plot.tsx:64 | History dot i of n has opacity in [0, 1) |
| ErrorPlot.MaxError | components/error-convergence-plot.tsx:14 | maxError is at least 1.1 and exceeds every non-negative error |
| ErrorPlot.XDenominator | components/error-convergence-plot.tsx:21 | The x denominator is at least 10 and at least currentEpoch |
| ErrorPlot.VertexX | components/error-convergence-plot.tsx:21 | A vertex x is non-negative, and below W when the index is below the denominator |
| ErrorPlot.VertexY | components/error-convergence-plot.tsx:22 | An error in [0, maxError) maps into (0, H]. A positive one maps strictly below H |
| ErrorPlot.Vertices | components/error-convergence-plot.tsx:20-24 | There is one vertex per error, in order |
| ErrorPlot.VertexXIncreasing | components/error-convergence-plot.tsx:21 | Vertex x-coordinates start at ≥ 0 and strictly increase with the index |
| ErrorPlot.VertexYInRange | components/error-convergence-plot.tsx:22 | A non-negative error's vertex y lies in (0, H]. A positive error's lies strictly below H |
| ErrorPlot.CurrentIndicator | components/error-convergence-plot.tsx:64-65 | The marker is absent iff there are no errors. Otherwise it sits on the last vertex |
| ErrorPlot.CurrentReadout | components/error-convergence-plot.tsx:79 | The readout is the "0.00" placeholder iff there are no errors. Otherwise it shows the last error |
| ErrorPlot.EmptyErrorsDrawNothing | components/error-convergence-plot.tsx:49-79 | With no errors there are no vertices and no marker, and the readout is the placeholder |
| ErrorPlot.TrainerErrors | components/training-lab.tsx:417 | The chart gets one error per training record: that record's misclassified count |
| ErrorPlot.TrainerVerticesInsideBox | components/error-convergence-plot.tsx:20-24 | Fed from a trainer satisfying `Inv`, every vertex has x in [0, W) and y in (0, H) |

## Left out

- Timers and scheduling are not modelled:
  - the `setInterval` of auto-training (components/training-lab.tsx:200-209);
  - the 800 ms highlight reset (191);
  - the 200 ms replay of the gradient-descent trajectory (components/GradientDescentVis.tsx:58-66).
- Trainer.AutoTrain models the loop the source evidently intends: each step sees the state the previous step produced.
  - In the source, the interval callback keeps the `performTrainingStep` and `hasConverged` of the render in which auto-training started.
  - So every tick repeats the same update from the same starting weights. "10 Steps" and "Run Auto" append n identical records, all with the starting epoch, and the weights move only once. Such a history does not satisfy `Inv`.
  - That behaviour comes from React closure capture, which is outside this model.
- The highlighted-point lookup (`findIndex` on coordinates, components/training-lab.tsx:152) and the `isTraining` spinner flag are display state.
- The buttons disabled while training or converged (383-398) are not modelled.
- The control sliders are not modelled as operations: problem type, point count, noise and learning rate. Their values are parameters of `GenerateData`, or the `learningRate` field.
- IEEE-754 rounding is not modelled: all numbers are exact reals.
- `toFixed` and all string formatting are not modelled. The "0.00" readout is the `Placeholder` value.
- SVG path strings are not modelled: they are command sequences.
- Animation, styling and layout are not modelled. Nor are the "(0,0)"-style row names of the AND/OR tables, or the frantic-line animation of the XOR view.
- WeightPlot.ScaleX and WeightPlot.ScaleY require a positive range. JavaScript would divide by zero instead. `ComputeScales` always gives a range of at least 2, so the chart's own calls meet the requirement.
- Convergence of auto-training on the AND/OR corners within 1000 steps, from arbitrary initial weights, is not proved. That is the perceptron convergence theorem. The model proves only that both corner sets are linearly separable.
- Batch-mode determinism needs no lemma: every Dafny function is deterministic.
- components/numerical-examples.tsx holds hard-coded worked-example text with a different convention: 0/1 targets and sign(0) = 0. It is not part of this model.
- Presentation-only components and the KaTeX wrapper are not part of this model: page, layout, navigation, sections, boxes, reveal and stagger effects, stats, formula boxes, the algorithm listing, the skip link and math-block.

=== FILE: and_or.dfy ===
/** The AND/OR illustration (components/and-or-demo.tsx): the two truth
    tables over the unit square and the hard-coded boundary segment drawn
    for each. */
module AndOr {
  import opened Perceptron
  import opened Datasets
  import opened Trainer

  const AndData: seq<Sample> := [
    Sample(0.0, 0.0, -1), Sample(1.0, 0.0, -1),
    Sample(0.0, 1.0, -1), Sample(1.0, 1.0, 1)
  ]

  const OrData: seq<Sample> := [
    Sample(0.0, 0.0, -1), Sample(1.0, 0.0, 1),
    Sample(0.0, 1.0, 1), Sample(1.0, 1.0, 1)
  ]

  /** The dashed segment drawn for AND, and the one drawn for OR. */
  const AndSegment: Segment := Segment(0.5, 1.2, 1.2, 0.5)
  const OrSegment: Segment := Segment(-0.1, 0.6, 0.6, -0.1)

  lemma AndOnlyTopRightPositive()
    ensures forall i :: 0 <= i < |AndData| ==>
              (AndData[i].classLabel == 1 <==> AndData[i].x == 1.0 && AndData[i].y == 1.0)
    ensures LabelCount(AndData, 1) == 1
  {
  }

  lemma OrOnlyOriginNegative()
    ensures forall i :: 0 <= i < |OrData| ==>
              (OrData[i].classLabel == -1 <==> OrData[i].x == 0.0 && OrData[i].y == 0.0)
    ensures LabelCount(OrData, -1) == 1
  {
  }

  /** Same inputs in the same order; the outputs differ only at (1,0) and
      (0,1). */
  lemma TablesDifferOnlyOnMixedInputs()
    ensures |AndData| == |OrData| == 4
    ensures forall i :: 0 <= i < 4 ==> AndData[i].x == OrData[i].x && AndData[i].y == OrData[i].y
    ensures forall i :: 0 <= i < 4 ==>
              (AndData[i].classLabel != OrData[i].classLabel <==> i == 1 || i == 2)
  {
  }

  /** The AND segment lies on x + y = 1.7, and that line strictly separates
      (1,1) from the other three points. */
  lemma AndSegmentSeparates()
    ensures OnBoundary((1.0, 1.0), -1.7, AndSegment.x1, AndSegment.y1)
    ensures OnBoundary((1.0, 1.0), -1.7, AndSegment.x2, AndSegment.y2)
    ensures StrictlySeparates((1.0, 1.0), -1.7, AndData)
  {
  }

  /** The OR segment lies on x + y = 0.5, and that line strictly separates
      (0,0) from the other three points. */
  lemma OrSegmentSeparates()
    ensures OnBoundary((1.0, 1.0), -0.5, OrSegment.x1, OrSegment.y1)
    ensures OnBoundary((1.0, 1.0), -0.5, OrSegment.x2, OrSegment.y2)
    ensures StrictlySeparates((1.0, 1.0), -0.5, OrData)
  {
  }

  /** The worked example: the AND table in the trainer from all-zero
      parameters at rate 0.1. Every sum is 0, so every point is predicted
      -1 and (1,1) is the first one wrong; error 2 moves w1, w2 and b to 0.2. */
  lemma AndTableFirstStep(s: TrainerState)
    requires s.dataPoints == FromSamples(AndData)
    requires s.weights == (0.0, 0.0) && s.bias == 0.0 && s.learningRate == 0.1
    ensures |Step(s).trainingHistory| == |s.trainingHistory| + 1
    ensures var r := Step(s);
            var rec := r.trainingHistory[|s.trainingHistory|];
            && r.weights == (0.2, 0.2) && r.bias == 0.2
            && rec.point == DataPoint(1.0, 1.0, 1, true)
            && rec.error == 2 && rec.calculatedOutput == -1 && rec.misclassifiedCount == 1
  {
    var pts := s.dataPoints;
    assert !Mispredicts(s.weights, s.bias, pts[0]);
    assert !Mispredicts(s.weights, s.bias, pts[1]);
    assert !Mispredicts(s.weights, s.bias, pts[2]);
    assert Mispredicts(s.weights, s.bias, pts[3]);
    StepUsesFirstMisclassified(s, 3);
    assert MisIndices(pts, s.weights, s.bias) == {3};
  }
}

=== FILE: charts.dfy ===
/** Vocabulary shared by the SVG charts: path commands and the extrema of a
    non-empty list (Math.min / Math.max over a spread array). */
module Charts {

  /** One SVG path command: "M x y" or "L x y". */
  datatype PathCommand = MoveTo(x: real, y: real) | LineTo(x: real, y: real)

  /** An SVG polyline path: nothing, or one move followed only by lines. */
  predicate IsPolyline(cmds: seq<PathCommand>)
  {
    |cmds| == 0 || (cmds[0].MoveTo? && forall i :: 1 <= i < |cmds| ==> cmds[i].LineTo?)
  }

  function SeqMin(s: seq<real>): (m: real)
    requires |s| > 0
    ensures m in s
    ensures forall i :: 0 <= i < |s| ==> m <= s[i]
  {
    if |s| == 1 then s[0]
    else
      var rest := SeqMin(s[1..]);
      if s[0] <= rest then s[0] else rest
  }

  function SeqMax(s: seq<real>): (m: real)
    requires |s| > 0
    ensures m in s
    ensures forall i :: 0 <= i < |s| ==> s[i] <= m
  {
    if |s| == 1 then s[0]
    else
      var rest := SeqMax(s[1..]);
      if s[0] >= rest then s[0] else rest
  }

  lemma MulAtLeastOne(q: real, r: real)
    requires r > 0.0
    ensures q >= 1.0 ==> q * r >= r
  {
  }

  /** A fraction a / r with 0 <= a < r lies in [0, 1), and above 0 when a
      does. */
  lemma FractionInUnit(a: real, r: real)
    requires 0.0 <= a < r
    ensures 0.0 <= a / r < 1.0
    ensures a > 0.0 ==> a / r > 0.0
  {
    var q := a / r;
    assert q * r == a;
    MulAtLeastOne(q, r);
  }

  lemma FractionMonotone(a: real, b: real, r: real)
    requires a < b && r > 0.0
    ensures a / r < b / r
  {
  }
}

=== FILE: datasets.dfy ===
/** The Training Lab's dataset generator (components/training-lab.tsx,
    generateProblemData): the fixed AND/OR corner sets and random points
    labelled by a hidden separator, with optional label flips.

    Every Math.random() call of the source is an explicit input here: a
    real that callers draw from [0, 1). */
module Datasets {
  import opened Perceptron

  /** A point of the Training Lab. The misclassified flag is derived: the
      generator always writes false and the trainer's scan recomputes it. */
  datatype DataPoint = DataPoint(x: real, y: real, classLabel: Sign, misclassified: bool)

  datatype ProblemType = Random | And | Or

  /** The three draws for the hidden separator, in the order the source
      makes them: trueW1, trueW2, trueBias. */
  datatype SeparatorDraw = SeparatorDraw(rw1: real, rw2: real, rb: real)

  /** The draws for one random point: x, y, and the flip draw (which the
      source only makes when the noise level is positive). */
  datatype PointDraw = PointDraw(rx: real, ry: real, rflip: real)

  predicate IsUnit(r: real) { 0.0 <= r < 1.0 }

  predicate SeparatorDrawValid(d: SeparatorDraw)
  {
    IsUnit(d.rw1) && IsUnit(d.rw2) && IsUnit(d.rb)
  }

  predicate PointDrawsValid(ds: seq<PointDraw>)
  {
    forall i :: 0 <= i < |ds| ==> IsUnit(ds[i].rx) && IsUnit(ds[i].ry) && IsUnit(ds[i].rflip)
  }

  /** Math.random() * 2 - 1: a draw from [0, 1) stretched onto [-1, 1). */
  function Spread(r: real): (v: real)
    ensures IsUnit(r) ==> -1.0 <= v < 1.0
  {
    r * 2.0 - 1.0
  }

  /** The AND corners: only (0.7, 0.7) is +1. */
  const AndCorners: seq<DataPoint> := [
    DataPoint(-0.7, -0.7, -1, false),
    DataPoint(-0.7, 0.7, -1, false),
    DataPoint(0.7, -0.7, -1, false),
    DataPoint(0.7, 0.7, 1, false)
  ]

  /** The OR corners: only (-0.7, -0.7) is -1. */
  const OrCorners: seq<DataPoint> := [
    DataPoint(-0.7, -0.7, -1, false),
    DataPoint(-0.7, 0.7, 1, false),
    DataPoint(0.7, -0.7, 1, false),
    DataPoint(0.7, 0.7, 1, false)
  ]

  /** Whether a point's label is flipped: only with positive noise, and only
      when the flip draw falls below noiseLevel / 100. */
  function ShouldFlip(noiseLevel: real, rflip: real): (flip: bool)
    ensures noiseLevel <= 0.0 ==> !flip
    ensures IsUnit(rflip) && noiseLevel >= 100.0 ==> flip
    ensures IsUnit(rflip) && flip ==> noiseLevel > 0.0 && rflip * 100.0 < noiseLevel
  {
    noiseLevel > 0.0 && rflip < noiseLevel / 100.0
  }

  /** One random point labelled by the hidden separator, possibly flipped. */
  function RandomPoint(sep: SeparatorDraw, noiseLevel: real, d: PointDraw): (p: DataPoint)
    ensures !p.misclassified
    ensures IsUnit(d.rx) && IsUnit(d.ry) ==> -1.0 <= p.x < 1.0 && -1.0 <= p.y < 1.0
    ensures (p.classLabel != Output((Spread(sep.rw1), Spread(sep.rw2)), Spread(sep.rb), p.x, p.y))
            <==> ShouldFlip(noiseLevel, d.rflip)
  {
    var x := Spread(d.rx);
    var y := Spread(d.ry);
    var baseLabel := Output((Spread(sep.rw1), Spread(sep.rw2)), Spread(sep.rb), x, y);
    var trueLabel: Sign := if ShouldFlip(noiseLevel, d.rflip) then Flip(baseLabel) else baseLabel;
    DataPoint(x, y, trueLabel, false)
  }

  /** The generator. In random mode it produces max(points, 0) points, the
      i-th from draws[i]; AND and OR ignore the count, noise and draws. */
  function GenerateProblemData(problem: ProblemType, points: int, noiseLevel: real,
                               sep: SeparatorDraw, draws: seq<PointDraw>): (r: seq<DataPoint>)
    requires problem == Random ==> points <= |draws|
    ensures problem == And ==> r == AndCorners
    ensures problem == Or ==> r == OrCorners
    ensures problem == Random ==> |r| == if points <= 0 then 0 else points
    ensures forall i :: 0 <= i < |r| ==> !r[i].misclassified
  {
    match problem
    case And => AndCorners
    case Or => OrCorners
    case Random =>
      if points <= 0 then []
      else seq(points, i requires 0 <= i < points => RandomPoint(sep, noiseLevel, draws[i]))
  }

  /** The hidden separator the random mode labels with. */
  function HiddenWeights(sep: SeparatorDraw): (real, real)
  {
    (Spread(sep.rw1), Spread(sep.rw2))
  }

  function HiddenBias(sep: SeparatorDraw): real
  {
    Spread(sep.rb)
  }

  /** True iff the parameters predict every point's label. */
  predicate Classifies(w: (real, real), b: real, pts: seq<DataPoint>)
  {
    forall i :: 0 <= i < |pts| ==> Output(w, b, pts[i].x, pts[i].y) == pts[i].classLabel
  }

  /** A truth table as trainer points, flags cleared. */
  function FromSamples(data: seq<Sample>): (r: seq<DataPoint>)
    ensures |r| == |data|
    ensures forall i :: 0 <= i < |r| ==>
              r[i] == DataPoint(data[i].x, data[i].y, data[i].classLabel, false)
  {
    seq(|data|, i requires 0 <= i < |data| => DataPoint(data[i].x, data[i].y, data[i].classLabel, false))
  }

  /** A truth table is separable as samples iff it is as trainer points. */
  lemma ClassifiesIffSeparates(w: (real, real), b: real, data: seq<Sample>)
    ensures Classifies(w, b, FromSamples(data)) <==> Separates(w, b, data)
  {
  }

  /** Random points lie in [-1, 1) x [-1, 1) when the draws lie in [0, 1). */
  lemma RandomPointsInSquare(points: int, noiseLevel: real, sep: SeparatorDraw, draws: seq<PointDraw>)
    requires points <= |draws|
    requires PointDrawsValid(draws)
    ensures var r := GenerateProblemData(Random, points, noiseLevel, sep, draws);
            forall i :: 0 <= i < |r| ==> -1.0 <= r[i].x < 1.0 && -1.0 <= r[i].y < 1.0
  {
    var r := GenerateProblemData(Random, points, noiseLevel, sep, draws);
    forall i | 0 <= i < |r|
      ensures -1.0 <= r[i].x < 1.0 && -1.0 <= r[i].y < 1.0
    {
      assert r[i] == RandomPoint(sep, noiseLevel, draws[i]);
    }
  }

  /** A label differs from the hidden separator's prediction exactly when
      the noise level is positive and the flip draw is below noiseLevel/100. */
  lemma FlipIffNoiseDraw(points: int, noiseLevel: real, sep: SeparatorDraw, draws: seq<PointDraw>, i: int)
    requires points <= |draws|
    requires 0 <= i < points
    ensures var p := GenerateProblemData(Random, points, noiseLevel, sep, draws)[i];
            (p.classLabel != Output(HiddenWeights(sep), HiddenBias(sep), p.x, p.y))
            <==> (noiseLevel > 0.0 && draws[i].rflip < noiseLevel / 100.0)
  {
    assert GenerateProblemData(Random, points, noiseLevel, sep, draws)[i]
        == RandomPoint(sep, noiseLevel, draws[i]);
  }

  /** With zero noise the hidden separator classifies every generated point,
      so the random dataset is linearly separable. */
  lemma NoNoiseSeparable(points: int, sep: SeparatorDraw, draws: seq<PointDraw>)
    requires points <= |draws|
    ensures Classifies(HiddenWeights(sep), HiddenBias(sep),
                       GenerateProblemData(Random, points, 0.0, sep, draws))
  {
    var r := GenerateProblemData(Random, points, 0.0, sep, draws);
    forall i | 0 <= i < |r|
      ensures Output(HiddenWeights(sep), HiddenBias(sep), r[i].x, r[i].y) == r[i].classLabel
    {
      FlipIffNoiseDraw(points, 0.0, sep, draws, i);
    }
  }

  /** The AND corners are linearly separable: the line x + y = 0.7 puts
      (0.7, 0.7) alone on the positive side. */
  lemma AndCornersSeparable()
    ensures Classifies((1.0, 1.0), -0.7, AndCorners)
    ensures forall i :: 0 <= i < |AndCorners| ==> (AndCorners[i].classLabel == 1 <==> AndCorners[i].x == 0.7 && AndCorners[i].y == 0.7)
  {
  }

  /** The OR corners are linearly separable: the line x + y = -0.7 puts
      (-0.7, -0.7) alone on the non-positive side. */
  lemma OrCornersSeparable()
    ensures Classifies((1.0, 1.0), 0.7, OrCorners)
    ensures forall i :: 0 <= i < |OrCorners| ==> (OrCorners[i].classLabel == -1 <==> OrCorners[i].x == -0.7 && OrCorners[i].y == -0.7)
  {
  }
}

=== FILE: descent.dfy ===
/** The gradient-descent toy (components/GradientDescentVis.tsx): an eager
    20-step trajectory on the bowl L(x, y) = x^2 + y^2 from (-80, -70), in
    batch mode or with a random "stochastic" kick per gradient component,
    and what the widget draws from it. */
module Descent {
  import opened Charts

  datatype DescentMode = Batch | Sgd

  /** One trajectory entry. */
  datatype TrajPoint = TrajPoint(x: real, y: real, loss: real)

  /** The two Math.random() draws of one stochastic step (x first). */
  datatype NoiseDraw = NoiseDraw(rx: real, ry: real)

  /** What the widget holds: the replayed prefix and the running flag. */
  datatype DescentView = DescentView(history: seq<TrajPoint>, isRunning: bool)

  const StartX: real := -80.0
  const StartY: real := -70.0
  const Steps: nat := 20
  const NoiseScale: real := 80.0
  /** The viewBox offset that puts the minimum at the centre (100, 100). */
  const Offset: real := 100.0

  function Loss(x: real, y: real): real
  {
    x * x + y * y
  }

  function At(x: real, y: real): TrajPoint
  {
    TrajPoint(x, y, Loss(x, y))
  }

  /** The kick added to a gradient component: (r - 0.5) * 80. */
  function Kick(r: real): (k: real)
    ensures 0.0 <= r < 1.0 ==> -40.0 <= k < 40.0
  {
    (r - 0.5) * NoiseScale
  }

  /** The added gradient noise of step i: none in batch mode. */
  function Perturbation(mode: DescentMode, draws: seq<NoiseDraw>, i: nat): (real, real)
    requires mode == Sgd ==> i < |draws|
  {
    if mode == Batch then (0.0, 0.0) else (Kick(draws[i].rx), Kick(draws[i].ry))
  }

  /** One update: gradient (2x, 2y) plus the perturbation, scaled by lr. */
  function Advance(lr: real, p: TrajPoint, noise: (real, real)): (q: TrajPoint)
    ensures q.loss == Loss(q.x, q.y)
    ensures noise == (0.0, 0.0) ==> q.x == (1.0 - 2.0 * lr) * p.x && q.y == (1.0 - 2.0 * lr) * p.y
  {
    var gradX := 2.0 * p.x + noise.0;
    var gradY := 2.0 * p.y + noise.1;
    At(p.x - lr * gradX, p.y - lr * gradY)
  }

  /** h is the trajectory runSimulation computes for these inputs. */
  ghost predicate IsTrajectory(mode: DescentMode, lr: real, draws: seq<NoiseDraw>, h: seq<TrajPoint>)
    requires mode == Sgd ==> Steps <= |draws|
  {
    && |h| == Steps + 1
    && h[0] == At(StartX, StartY)
    && forall i :: 0 <= i < Steps ==> h[i + 1] == Advance(lr, h[i], Perturbation(mode, draws, i))
  }

  /** The trajectory computation of runSimulation. */
  method RunSimulation(mode: DescentMode, lr: real, draws: seq<NoiseDraw>) returns (history: seq<TrajPoint>)
    requires mode == Sgd ==> Steps <= |draws|
    ensures IsTrajectory(mode, lr, draws, history)
    ensures |history| == 21 && history[0] == TrajPoint(-80.0, -70.0, 11300.0)
    ensures forall i :: 0 <= i < |history| ==> history[i].loss == Loss(history[i].x, history[i].y)
  {
    var currentX := StartX;
    var currentY := StartY;
    history := [At(currentX, currentY)];
    var i := 0;
    while i < Steps
      invariant 0 <= i <= Steps
      invariant |history| == i + 1
      invariant history[0] == At(StartX, StartY)
      invariant history[i] == At(currentX, currentY)
      invariant forall k :: 0 <= k < i ==> history[k + 1] == Advance(lr, history[k], Perturbation(mode, draws, k))
      invariant forall k :: 0 <= k < |history| ==> history[k].loss == Loss(history[k].x, history[k].y)
    {
      var gradX := 2.0 * currentX;
      var gradY := 2.0 * currentY;
      if mode == Sgd {
        gradX := gradX + Kick(draws[i].rx);
        gradY := gradY + Kick(draws[i].ry);
      }
      currentX := currentX - lr * gradX;
      currentY := currentY - lr * gradY;
      var next := At(currentX, currentY);
      assert next == Advance(lr, history[i], Perturbation(mode, draws, i));
      history := history + [next];
      i := i + 1;
    }
  }

  /** A batch step scales both coordinates by (1 - 2 lr). */
  lemma BatchStepScales(lr: real, p: TrajPoint)
    ensures Advance(lr, p, (0.0, 0.0)).x == (1.0 - 2.0 * lr) * p.x
    ensures Advance(lr, p, (0.0, 0.0)).y == (1.0 - 2.0 * lr) * p.y
  {
  }

  /** In the slider's range the factor 1 - 2 lr lies in [0.6, 0.98]. */
  predicate SliderRate(lr: real)
  {
    0.01 <= lr <= 0.2
  }

  lemma ScaleTowardsZero(c: real, v: real)
    requires 0.0 < c < 1.0 && v < 0.0
    ensures v < c * v < 0.0
  {
  }

  lemma SquareShrinks(u: real, v: real)
    requires v < u < 0.0
    ensures u * u < v * v
  {
    assert (-u) * (-u) < (-v) * (-u);
    assert (-v) * (-u) < (-v) * (-v);
  }

  /** One batch step from a point in the negative quadrant moves strictly
      towards the minimum along both axes and lowers the loss. */
  lemma BatchStepDescends(lr: real, p: TrajPoint)
    requires SliderRate(lr)
    requires p.x < 0.0 && p.y < 0.0 && p.loss == Loss(p.x, p.y)
    ensures var q := Advance(lr, p, (0.0, 0.0));
            p.x < q.x < 0.0 && p.y < q.y < 0.0 && q.loss < p.loss
  {
    var q := Advance(lr, p, (0.0, 0.0));
    var c := 1.0 - 2.0 * lr;
    BatchStepScales(lr, p);
    assert q.x == c * p.x && q.y == c * p.y;
    ScaleTowardsZero(c, p.x);
    ScaleTowardsZero(c, p.y);
    SquareShrinks(q.x, p.x);
    SquareShrinks(q.y, p.y);
  }

  /** In batch mode with a slider rate, every coordinate stays negative and
      strictly shrinks in magnitude, so the loss strictly decreases at every
      step. */
  lemma {:induction false} BatchDescends(lr: real, draws: seq<NoiseDraw>, h: seq<TrajPoint>, i: nat)
    requires SliderRate(lr)
    requires IsTrajectory(Batch, lr, draws, h)
    requires i < Steps
    ensures h[i].x < h[i + 1].x < 0.0 && h[i].y < h[i + 1].y < 0.0
    ensures h[i + 1].loss < h[i].loss
  {
    if i > 0 {
      BatchDescends(lr, draws, h, i - 1);
      assert h[i] == Advance(lr, h[i - 1], Perturbation(Batch, draws, i - 1));
    }
    assert h[i + 1] == Advance(lr, h[i], (0.0, 0.0));
    BatchStepDescends(lr, h[i]);
  }

  /** Height of a loss bar, as a percentage of the starting loss, capped. */
  function BarHeight(loss: real): (h: real)
    ensures loss >= 0.0 ==> 0.0 <= h <= 100.0
    ensures h <= 100.0
  {
    var v := loss / (StartX * StartX + StartY * StartY) * 100.0;
    if v < 100.0 then v else 100.0
  }

  lemma StartBarIsFull()
    ensures BarHeight(Loss(StartX, StartY)) == 100.0
  {
  }

  /** pathData: empty for no history, else one move to the first point and
      one line to each later point, each shifted by (+100, +100). */
  function PathData(history: seq<TrajPoint>): (cmds: seq<PathCommand>)
    ensures |cmds| == |history|
    ensures IsPolyline(cmds)
    ensures forall i :: 0 <= i < |cmds| ==>
              cmds[i].x == history[i].x + Offset && cmds[i].y == history[i].y + Offset
  {
    seq(|history|, i requires 0 <= i < |history| =>
          if i == 0 then MoveTo(history[i].x + Offset, history[i].y + Offset)
          else LineTo(history[i].x + Offset, history[i].y + Offset))
  }

  /** reset: clears the history and the running flag. */
  function Reset(v: DescentView): (r: DescentView)
    ensures PathData(r.history) == [] && !r.isRunning
  {
    DescentView([], false)
  }

  /** The view right after the run button: the first point shown, running.
      The previous view is replaced without being read. */
  function StartRun(trajectory: seq<TrajPoint>): (r: DescentView)
    requires |trajectory| > 0
    ensures r.isRunning
    ensures PathData(r.history) == [MoveTo(trajectory[0].x + Offset, trajectory[0].y + Offset)]
  {
    DescentView([trajectory[0]], true)
  }

  /** A run of the simulation starts its path at the start point (-80, -70),
      which the viewBox offset puts at (20, 30). */
  lemma StartRunShowsStart(mode: DescentMode, lr: real, draws: seq<NoiseDraw>, h: seq<TrajPoint>)
    requires mode == Sgd ==> Steps <= |draws|
    requires IsTrajectory(mode, lr, draws, h)
    ensures PathData(StartRun(h).history) == [MoveTo(20.0, 30.0)]
  {
    assert h[0] == At(StartX, StartY);
  }
}

=== FILE: diagram.dfy ===
/** The interactive decision-boundary diagram
    (components/interactive-diagram.tsx): the boundary segment over
    x in [-1.2, 1.2] with a clamped divisor, its y-flipped rendering, and
    the normal-vector indicator. */
module Diagram {
  import opened Perceptron
  import Trainer

  const Epsilon: real := 0.05

  function Abs(v: real): real
  {
    if v < 0.0 then -v else v
  }

  /** The divisor used for w2: 0.05 whenever |w2| < 0.05 (whatever the sign
      of w2), w2 itself otherwise. */
  function Divisor(w2: real): (d: real)
    ensures Abs(w2) < Epsilon ==> d == Epsilon
    ensures Abs(w2) >= Epsilon ==> d == w2
    ensures d != 0.0 && Abs(d) >= Epsilon
  {
    if Abs(w2) < Epsilon then Epsilon else w2
  }

  /** A small negative w2 is clamped to +0.05, so the drawn line uses a
      divisor of the opposite sign. */
  lemma ClampIgnoresSign(w2: real)
    requires -Epsilon < w2 < 0.0
    ensures Divisor(w2) > 0.0 > w2
    ensures Divisor(w2) != -Epsilon
  {
  }

  /** getLinePoints of the diagram. */
  function LinePoints(w: (real, real), b: real): (seg: Segment)
    ensures seg.x1 == -1.2 && seg.x2 == 1.2
    ensures Abs(w.1) >= Epsilon ==> OnBoundary(w, b, seg.x1, seg.y1) && OnBoundary(w, b, seg.x2, seg.y2)
    ensures Abs(w.1) < Epsilon ==>
              OnBoundary((w.0, Epsilon), b, seg.x1, seg.y1) && OnBoundary((w.0, Epsilon), b, seg.x2, seg.y2)
  {
    var d := Divisor(w.1);
    var x1 := -1.2;
    var y1 := (-w.0 * x1 - b) / d;
    var x2 := 1.2;
    var y2 := (-w.0 * x2 - b) / d;
    Segment(x1, y1, x2, y2)
  }

  /** The segment as animated: both y values negated for SVG's downward y. */
  function Rendered(seg: Segment): Segment
  {
    Segment(seg.x1, -seg.y1, seg.x2, -seg.y2)
  }

  /** The tip of the normal-vector indicator drawn from the origin. */
  function NormalTip(w: (real, real)): (real, real)
  {
    (w.0 * 0.5, -w.1 * 0.5)
  }

  /** With w2 outside the clamp band, the rendered endpoints lie on the
      boundary as seen in screen coordinates, w1*x - w2*y + b = 0, and the
      normal tip is half of (w1, -w2), the normal of that screen line. */
  lemma RenderedOnScreenBoundary(w: (real, real), b: real)
    requires Abs(w.1) >= Epsilon
    ensures var r := Rendered(LinePoints(w, b));
            && r.x1 == -1.2 && r.x2 == 1.2
            && OnBoundary((w.0, -w.1), b, r.x1, r.y1) && OnBoundary((w.0, -w.1), b, r.x2, r.y2)
    ensures 2.0 * NormalTip(w).0 == w.0 && 2.0 * NormalTip(w).1 == -w.1
  {
  }

  /** In screen coordinates the normal indicator is perpendicular to the
      drawn boundary whenever w2 was not clamped. */
  lemma NormalPerpendicularToRenderedLine(w: (real, real), b: real)
    requires Abs(w.1) >= Epsilon
    ensures var r := Rendered(LinePoints(w, b));
            var tip := NormalTip(w);
            (r.x2 - r.x1) * tip.0 + (r.y2 - r.y1) * tip.1 == 0.0
  {
    var seg := LinePoints(w, b);
    var r := Rendered(seg);
    assert w.0 * (seg.x2 - seg.x1) + w.1 * (seg.y2 - seg.y1) == 0.0;
    calc {
      (r.x2 - r.x1) * NormalTip(w).0 + (r.y2 - r.y1) * NormalTip(w).1;
      (seg.x2 - seg.x1) * (w.0 * 0.5) + (seg.y1 - seg.y2) * (-w.1 * 0.5);
      0.5 * (w.0 * (seg.x2 - seg.x1) + w.1 * (seg.y2 - seg.y1));
    }
  }

  /** The two helpers agree when w2 is outside the clamp band: both draw the
      exact boundary over [-1.2, 1.2]. Only the Training Lab's handles w2 = 0
      with a fixed segment; only the diagram's clamps small w2. */
  lemma AgreesWithTrainingLab(w: (real, real), b: real)
    requires Abs(w.1) >= Epsilon
    ensures LinePoints(w, b) == Trainer.LinePoints(w, b)
  {
  }

  lemma DisagreesWithTrainingLabAtZero(w: (real, real), b: real)
    requires w.1 == 0.0
    ensures LinePoints(w, b).x1 != Trainer.LinePoints(w, b).x1
  {
  }
}

=== FILE: error_plot.dfy ===
/** The training-progress chart (components/error-convergence-plot.tsx):
    the vertical scale, one polyline vertex per recorded error count, the
    marker on the latest vertex and the latest-error readout. */
module ErrorPlot {
  import opened Charts
  import opened Trainer

  const W: real := 350.0
  const H: real := 200.0

  /** The marker: absent without errors, else at the latest vertex. */
  datatype Indicator = NoIndicator | IndicatorAt(x: real, y: real)

  /** The "Current Error" readout: the "0.00" placeholder, or a value. */
  datatype Readout = Placeholder | Reading(value: real)

  /** Math.max(...errors, 1) * 1.1: at least 1.1, and above every
      non-negative error. */
  function MaxError(errors: seq<real>): (m: real)
    ensures m >= 1.1
    ensures forall i :: 0 <= i < |errors| && errors[i] >= 0.0 ==> errors[i] < m
  {
    var top := SeqMax(errors + [1.0]);
    assert forall i :: 0 <= i < |errors| ==> (errors + [1.0])[i] == errors[i];
    assert (errors + [1.0])[|errors|] == 1.0;
    top * 1.1
  }

  /** Math.max(currentEpoch, 10): the x-axis always spans at least 10. */
  function XDenominator(currentEpoch: int): (d: real)
    ensures d >= 10.0 && d >= currentEpoch as real
  {
    if currentEpoch > 10 then currentEpoch as real else 10.0
  }

  /** A vertex's horizontal pixel: index over the epoch denominator. */
  function VertexX(i: nat, currentEpoch: int): (x: real)
    ensures 0.0 <= x
    ensures (i as real) < XDenominator(currentEpoch) ==> x < W
  {
    var d := XDenominator(currentEpoch);
    var x := i as real / d * W;
    // both branches yield the same value; the first only brings the range
    // lemma into scope for the ensures
    if (i as real) < d then FractionInUnit(i as real, d); x else x
  }

  /** A vertex's vertical pixel: error 0 on the x-axis at H, higher errors
      further up. */
  function VertexY(e: real, maxError: real): (y: real)
    requires maxError > 0.0
    ensures 0.0 <= e < maxError ==> 0.0 < y <= H && (e > 0.0 ==> y < H)
  {
    var y := H - e / maxError * H;
    // both branches yield the same value; the first only brings the range
    // lemma into scope for the ensures
    if 0.0 <= e < maxError then FractionInUnit(e, maxError); y else y
  }

  /** The polyline: one vertex per error, in order. */
  function Vertices(errors: seq<real>, currentEpoch: int): (vs: seq<(real, real)>)
    ensures |vs| == |errors|
    ensures forall i :: 0 <= i < |vs| ==>
              vs[i] == (VertexX(i, currentEpoch), VertexY(errors[i], MaxError(errors)))
  {
    var m := MaxError(errors);
    seq(|errors|, i requires 0 <= i < |errors| => (VertexX(i, currentEpoch), VertexY(errors[i], m)))
  }

  /** Vertex x-coordinates start at 0 and strictly increase with index. */
  lemma VertexXIncreasing(errors: seq<real>, currentEpoch: int, i: nat, j: nat)
    requires i < j < |errors|
    ensures var vs := Vertices(errors, currentEpoch);
            0.0 <= vs[i].0 < vs[j].0
  {
    var d := XDenominator(currentEpoch);
    assert i as real / d < j as real / d;
  }

  /** A non-negative error's vertex lies in (0, H]; error 0 sits on the
      x-axis at H, and a positive error strictly above it. */
  lemma VertexYInRange(errors: seq<real>, currentEpoch: int, i: nat)
    requires i < |errors| && errors[i] >= 0.0
    ensures var y := Vertices(errors, currentEpoch)[i].1;
            0.0 < y <= H && (errors[i] > 0.0 ==> y < H)
  {
    var m := MaxError(errors);
    FractionInUnit(errors[i], m);
  }

  function CurrentIndicator(errors: seq<real>, currentEpoch: int): (ind: Indicator)
    ensures |errors| == 0 <==> ind == NoIndicator
    ensures |errors| > 0 ==>
              ind == IndicatorAt(Vertices(errors, currentEpoch)[|errors| - 1].0,
                                 Vertices(errors, currentEpoch)[|errors| - 1].1)
  {
    if |errors| == 0 then NoIndicator
    else
      IndicatorAt(VertexX(|errors| - 1, currentEpoch),
                  VertexY(errors[|errors| - 1], MaxError(errors)))
  }

  function CurrentReadout(errors: seq<real>): (r: Readout)
    ensures |errors| == 0 <==> r == Placeholder
    ensures |errors| > 0 ==> r == Reading(errors[|errors| - 1])
  {
    if |errors| == 0 then Placeholder else Reading(errors[|errors| - 1])
  }

  /** The errors the Training Lab passes: each record's count before its
      update. */
  function TrainerErrors(s: TrainerState): (errors: seq<real>)
    ensures |errors| == |s.trainingHistory|
    ensures forall i :: 0 <= i < |errors| ==>
              errors[i] == s.trainingHistory[i].misclassifiedCount as real
  {
    seq(|s.trainingHistory|, i requires 0 <= i < |s.trainingHistory| =>
          s.trainingHistory[i].misclassifiedCount as real)
  }

  /** Fed by a consistent trainer, every vertex lies inside the plot box:
      x in [0, W) because there are currentEpoch records, and y in (0, H)
      because every recorded count is at least 1. */
  lemma TrainerVerticesInsideBox(s: TrainerState)
    requires Inv(s)
    ensures var vs := Vertices(TrainerErrors(s), s.currentEpoch);
            forall i :: 0 <= i < |vs| ==> 0.0 <= vs[i].0 < W && 0.0 < vs[i].1 < H
  {
    forall i | 0 <= i < |s.trainingHistory|
      ensures var v := Vertices(TrainerErrors(s), s.currentEpoch)[i];
              0.0 <= v.0 < W && 0.0 < v.1 < H
    {
      TrainerVertexInsideBox(s, i);
    }
  }

  lemma TrainerVertexInsideBox(s: TrainerState, i: nat)
    requires Inv(s) && i < |s.trainingHistory|
    ensures var v := Vertices(TrainerErrors(s), s.currentEpoch)[i];
            0.0 <= v.0 < W && 0.0 < v.1 < H
  {
    var errors := TrainerErrors(s);
    FractionInUnit(i as real, XDenominator(s.currentEpoch));
    assert RecordWellFormed(s.trainingHistory[i]);
    VertexYInRange(errors, s.currentEpoch, i);
  }

  /** No errors: no polyline, no marker, the placeholder readout. */
  lemma EmptyErrorsDrawNothing(currentEpoch: int)
    ensures Vertices([], currentEpoch) == []
    ensures CurrentIndicator([], currentEpoch) == NoIndicator
    ensures CurrentReadout([]) == Placeholder
  {
  }
}

=== FILE: perceptron.dfy ===
/** The perceptron's prediction rule and the small geometric vocabulary
    shared by every component: a weighted sum, the strict threshold at zero,
    labelled sample points and line segments. */
module Perceptron {

  /** A class label or a perceptron output: always +1 or -1, never 0. */
  type Sign = s: int | s == 1 || s == -1 witness 1

  /** A labelled point of a fixed truth table (no derived flags). */
  datatype Sample = Sample(x: real, y: real, classLabel: Sign)

  /** A drawn line segment from (x1, y1) to (x2, y2). */
  datatype Segment = Segment(x1: real, y1: real, x2: real, y2: real)

  /** w1*x + w2*y + b: the perceptron's activation. */
  function Sum(w: (real, real), b: real, x: real, y: real): real
  {
    w.0 * x + w.1 * y + b
  }

  /** The prediction: +1 when the sum is strictly positive, -1 otherwise,
      so a point exactly on the boundary is predicted -1. */
  function Output(w: (real, real), b: real, x: real, y: real): (r: Sign)
    ensures r == 1 <==> w.0 * x + w.1 * y + b > 0.0
    ensures r == -1 <==> w.0 * x + w.1 * y + b <= 0.0
  {
    if Sum(w, b, x, y) > 0.0 then 1 else -1
  }

  /** The opposite class. */
  function Flip(s: Sign): (r: Sign)
    ensures r != s
  {
    if s == 1 then -1 else 1
  }

  /** True iff (x, y) lies on the line w1*x + w2*y + b = 0. */
  predicate OnBoundary(w: (real, real), b: real, x: real, y: real)
  {
    w.0 * x + w.1 * y + b == 0.0
  }

  /** True iff the parameters predict every sample's label. The truth tables
      are bare samples; the trainer's points carry a flag besides, and
      Datasets.Classifies states the same property for them (the two agree
      by Datasets.ClassifiesIffSeparates). */
  predicate Separates(w: (real, real), b: real, data: seq<Sample>)
  {
    forall i :: 0 <= i < |data| ==> Output(w, b, data[i].x, data[i].y) == data[i].classLabel
  }

  /** Like Separates, and in addition no sample lies on the line. */
  predicate StrictlySeparates(w: (real, real), b: real, data: seq<Sample>)
  {
    Separates(w, b, data) &&
    forall i :: 0 <= i < |data| ==> !OnBoundary(w, b, data[i].x, data[i].y)
  }

  /** How many samples carry label l. */
  function LabelCount(data: seq<Sample>, l: Sign): (n: nat)
    ensures n <= |data|
  {
    if |data| == 0 then 0
    else (if data[0].classLabel == l then 1 else 0) + LabelCount(data[1..], l)
  }

  /** The threshold is not symmetric: a point on the boundary is predicted
      -1 both by (w, b) and by the negated parameters (-w, -b). */
  lemma BoundaryPredictsNegative(w: (real, real), b: real, x: real, y: real)
    requires OnBoundary(w, b, x, y)
    ensures Output(w, b, x, y) == -1
    ensures Output((-w.0, -w.1), -b, x, y) == -1
  {
  }

  /** Off the boundary, negating every parameter swaps the prediction. */
  lemma NegationSwapsPrediction(w: (real, real), b: real, x: real, y: real)
    requires !OnBoundary(w, b, x, y)
    ensures Output((-w.0, -w.1), -b, x, y) == Flip(Output(w, b, x, y))
  {
    assert (-w.0) * x + (-w.1) * y + (-b) == -(w.0 * x + w.1 * y + b);
  }
}

=== FILE: trainer.dfy ===
/** The Training Lab's perceptron engine (components/training-lab.tsx): the
    trainer state, the misclassification scan, the single perceptron-rule
    step, the bounded auto-train loop, reset and regenerate, and the
    decision-boundary segment drawn from the current weights.

    The React state hooks become one immutable record that every operation
    maps to a new record; timers, highlighting and the training spinner are
    not part of it. */
module Trainer {
  import opened Perceptron
  import opened Datasets

  /** One entry of the weight trajectory: the weights after an update. */
  datatype WeightHistoryPoint = WeightHistoryPoint(epoch: int, w1: real, w2: real)

  /** The record appended by every updating step. */
  datatype TrainingStep = TrainingStep(
    epoch: int,
    point: DataPoint,
    error: int,
    oldWeights: (real, real),
    newWeights: (real, real),
    oldBias: real,
    newBias: real,
    misclassifiedCount: nat,
    calculatedOutput: Sign)

  datatype TrainerState = TrainerState(
    dataPoints: seq<DataPoint>,
    weights: (real, real),
    bias: real,
    learningRate: real,
    currentEpoch: int,
    trainingHistory: seq<TrainingStep>,
    weightHistory: seq<WeightHistoryPoint>,
    hasConverged: bool,
    currentStep: int)

  /** The three draws reset and regenerate make for w1, w2 and the bias. */
  datatype InitDraw = InitDraw(rw1: real, rw2: real, rb: real)

  predicate InitDrawValid(d: InitDraw)
  {
    IsUnit(d.rw1) && IsUnit(d.rw2) && IsUnit(d.rb)
  }

  /** The state of the first render, before the mount effect regenerates. */
  const Initial: TrainerState :=
    TrainerState([], (0.3, -0.5), 0.1, 0.1, 0, [], [], false, -1)

  /** Default controls: random problem, 20 points, no noise. */
  const DefaultNumPoints: int := 20
  const DefaultNoiseLevel: real := 0.0

  // ---------------------------------------------------------------------
  // The scan

  /** True iff the current parameters predict the wrong label for p. */
  predicate Mispredicts(w: (real, real), b: real, p: DataPoint)
  {
    Output(w, b, p.x, p.y) != p.classLabel
  }

  /** Indices of the points the parameters get wrong. */
  ghost function MisIndices(pts: seq<DataPoint>, w: (real, real), b: real): set<int>
  {
    set j | 0 <= j < |pts| && Mispredicts(w, b, pts[j])
  }

  /** getMisclassifiedPoints: a copy of every point with its flag recomputed. */
  function Scan(pts: seq<DataPoint>, w: (real, real), b: real): (r: seq<DataPoint>)
    ensures |r| == |pts|
    ensures forall i :: 0 <= i < |r| ==>
              r[i].x == pts[i].x && r[i].y == pts[i].y && r[i].classLabel == pts[i].classLabel
    ensures forall i :: 0 <= i < |r| ==> (r[i].misclassified <==> Mispredicts(w, b, pts[i]))
  {
    seq(|pts|, i requires 0 <= i < |pts| => pts[i].(misclassified := Mispredicts(w, b, pts[i])))
  }

  /** The filter on the flag, keeping dataset order. */
  function Misclassified(pts: seq<DataPoint>): (r: seq<DataPoint>)
    ensures |r| <= |pts|
    ensures forall q :: q in r <==> q in pts && q.misclassified
  {
    if |pts| == 0 then []
    else (if pts[0].misclassified then [pts[0]] else []) + Misclassified(pts[1..])
  }

  lemma {:induction false} MisclassifiedAppend(a: seq<DataPoint>, b: seq<DataPoint>)
    ensures Misclassified(a + b) == Misclassified(a) + Misclassified(b)
  {
    if |a| == 0 {
      assert a + b == b;
    } else {
      assert (a + b)[0] == a[0];
      assert (a + b)[1..] == a[1..] + b;
      MisclassifiedAppend(a[1..], b);
    }
  }

  /** Indices below n whose point carries the flag. */
  ghost function FlaggedBelow(q: seq<DataPoint>, n: nat): set<int>
    requires n <= |q|
  {
    set j | 0 <= j < n && q[j].misclassified
  }

  lemma FlaggedBelowStep(q: seq<DataPoint>, n: nat)
    requires 0 < n <= |q|
    ensures |FlaggedBelow(q, n)| == |FlaggedBelow(q, n - 1)| + (if q[n - 1].misclassified then 1 else 0)
  {
    if q[n - 1].misclassified {
      assert FlaggedBelow(q, n) == FlaggedBelow(q, n - 1) + {n - 1};
    } else {
      assert FlaggedBelow(q, n) == FlaggedBelow(q, n - 1);
    }
  }

  lemma MisclassifiedSnoc(q: seq<DataPoint>, n: nat)
    requires 0 < n <= |q|
    ensures |Misclassified(q[..n])| == |Misclassified(q[..n - 1])| + (if q[n - 1].misclassified then 1 else 0)
  {
    assert q[..n] == q[..n - 1] + [q[n - 1]];
    MisclassifiedAppend(q[..n - 1], [q[n - 1]]);
    assert [q[n - 1]][1..] == [];
  }

  /** The filter keeps exactly as many points as carry the flag. */
  lemma {:induction false} MisclassifiedCountPrefix(q: seq<DataPoint>, n: nat)
    requires n <= |q|
    ensures |Misclassified(q[..n])| == |FlaggedBelow(q, n)|
  {
    if n == 0 {
      assert FlaggedBelow(q, 0) == {};
    } else {
      MisclassifiedCountPrefix(q, n - 1);
      MisclassifiedSnoc(q, n);
      FlaggedBelowStep(q, n);
    }
  }

  /** The count the step records equals the number of wrongly predicted
      points. */
  lemma MisclassifiedCountIsMisIndices(pts: seq<DataPoint>, w: (real, real), b: real)
    ensures |Misclassified(Scan(pts, w, b))| == |MisIndices(pts, w, b)|
  {
    var q := Scan(pts, w, b);
    MisclassifiedCountPrefix(q, |q|);
    assert q[..|q|] == q;
    assert FlaggedBelow(q, |q|) == MisIndices(pts, w, b);
  }

  /** The first flagged point in dataset order heads the filtered list. */
  lemma {:induction false} MisclassifiedFirst(q: seq<DataPoint>, i: nat)
    requires i < |q| && q[i].misclassified
    requires forall j :: 0 <= j < i ==> !q[j].misclassified
    ensures |Misclassified(q)| > 0 && Misclassified(q)[0] == q[i]
  {
    if i > 0 {
      MisclassifiedFirst(q[1..], i - 1);
    }
  }

  /** The filtered scan is empty exactly when every label is predicted. */
  lemma ScanEmptyIffClassifies(pts: seq<DataPoint>, w: (real, real), b: real)
    ensures |Misclassified(Scan(pts, w, b))| == 0 <==> Classifies(w, b, pts)
  {
    var q := Scan(pts, w, b);
    if |Misclassified(q)| > 0 {
      var p := Misclassified(q)[0];
      assert p in Misclassified(q);
      var i :| 0 <= i < |q| && q[i] == p;
      assert Mispredicts(w, b, pts[i]);
    }
    if !Classifies(w, b, pts) {
      var i :| 0 <= i < |pts| && Mispredicts(w, b, pts[i]);
      assert q[i] in Misclassified(q);
    }
  }

  /** Every element of the filtered scan is a flagged copy of a dataset
      point the parameters get wrong. */
  lemma ScanHeadMispredicts(pts: seq<DataPoint>, w: (real, real), b: real)
    requires |Misclassified(Scan(pts, w, b))| > 0
    ensures var p := Misclassified(Scan(pts, w, b))[0];
            p.misclassified && Mispredicts(w, b, p) &&
            exists i :: 0 <= i < |pts| && p == pts[i].(misclassified := true)
  {
    var q := Scan(pts, w, b);
    var p := Misclassified(q)[0];
    assert p in Misclassified(q);
    var i :| 0 <= i < |q| && q[i] == p;
    assert p == pts[i].(misclassified := true);
  }

  /** Recomputing the flags is idempotent: the stored flag is never read. */
  lemma ScanIdempotent(pts: seq<DataPoint>, w: (real, real), b: real)
    ensures Scan(Scan(pts, w, b), w, b) == Scan(pts, w, b)
  {
  }

  // ---------------------------------------------------------------------
  // The step

  /** The bookkeeping of one updating step, against the old state: one
      record and one trajectory entry appended, both counters bumped, the
      dataset, learning rate and converged flag untouched. */
  predicate AppendsOneRecord(s: TrainerState, r: TrainerState)
  {
    && r.dataPoints == s.dataPoints
    && r.learningRate == s.learningRate
    && r.hasConverged == s.hasConverged
    && r.currentEpoch == s.currentEpoch + 1
    && r.currentStep == s.currentStep + 1
    && |r.trainingHistory| == |s.trainingHistory| + 1
    && r.trainingHistory[..|s.trainingHistory|] == s.trainingHistory
    && |r.weightHistory| == |s.weightHistory| + 1
    && r.weightHistory[..|s.weightHistory|] == s.weightHistory
  }

  /** The perceptron rule as the appended record and the new state show it:
      the recorded point was misclassified, its error is label - output and
      so +2 or -2, and w1, w2, b moved by rate * error * (x, y, 1). */
  predicate AppliesRule(s: TrainerState, rec: TrainingStep, r: TrainerState)
  {
    && rec.epoch == s.currentEpoch
    && rec.point.misclassified
    && Mispredicts(s.weights, s.bias, rec.point)
    && rec.calculatedOutput == Output(s.weights, s.bias, rec.point.x, rec.point.y)
    && rec.calculatedOutput == Flip(rec.point.classLabel)
    && rec.error == rec.point.classLabel - rec.calculatedOutput
    && (rec.error == 2 || rec.error == -2)
    && rec.misclassifiedCount >= 1
    && rec.oldWeights == s.weights && rec.oldBias == s.bias
    && rec.newWeights == r.weights && rec.newBias == r.bias
    && r.weights.0 == s.weights.0 + s.learningRate * (rec.error as real) * rec.point.x
    && r.weights.1 == s.weights.1 + s.learningRate * (rec.error as real) * rec.point.y
    && r.bias == s.bias + s.learningRate * (rec.error as real)
  }

  /** One whole updating step. */
  predicate AppendsUpdate(s: TrainerState, r: TrainerState)
  {
    && AppendsOneRecord(s, r)
    && AppliesRule(s, r.trainingHistory[|s.trainingHistory|], r)
    && r.weightHistory[|s.weightHistory|] == WeightHistoryPoint(s.currentEpoch + 1, r.weights.0, r.weights.1)
  }

  /** The update branch of performTrainingStep, for the chosen point and
      the number of misclassified points found by the scan. */
  function Update(s: TrainerState, pointToUpdate: DataPoint, count: nat): TrainerState
  {
    var output := Output(s.weights, s.bias, pointToUpdate.x, pointToUpdate.y);
    var error := pointToUpdate.classLabel - output;
    var newW1 := s.weights.0 + s.learningRate * (error as real) * pointToUpdate.x;
    var newW2 := s.weights.1 + s.learningRate * (error as real) * pointToUpdate.y;
    var newBias := s.bias + s.learningRate * (error as real);
    var newStep := TrainingStep(s.currentEpoch, pointToUpdate, error, s.weights,
                                (newW1, newW2), s.bias, newBias, count, output);
    s.(weights := (newW1, newW2),
       bias := newBias,
       trainingHistory := s.trainingHistory + [newStep],
       weightHistory := s.weightHistory + [WeightHistoryPoint(s.currentEpoch + 1, newW1, newW2)],
       currentEpoch := s.currentEpoch + 1,
       currentStep := s.currentStep + 1)
  }

  lemma UpdateAppends(s: TrainerState, p: DataPoint, count: nat)
    requires p.misclassified && Mispredicts(s.weights, s.bias, p) && count >= 1
    ensures AppendsUpdate(s, Update(s, p, count))
    ensures Update(s, p, count).trainingHistory[|s.trainingHistory|].point == p
    ensures Update(s, p, count).trainingHistory[|s.trainingHistory|].misclassifiedCount == count
  {
    var r := Update(s, p, count);
    assert r.trainingHistory[..|s.trainingHistory|] == s.trainingHistory;
    assert r.weightHistory[..|s.weightHistory|] == s.weightHistory;
  }

  /** performTrainingStep. With nothing misclassified it only sets the
      converged flag; otherwise it updates on the first misclassified point. */
  function Step(s: TrainerState): (r: TrainerState)
    ensures Classifies(s.weights, s.bias, s.dataPoints) <==> r == s.(hasConverged := true)
    ensures !Classifies(s.weights, s.bias, s.dataPoints) ==> AppendsUpdate(s, r)
  {
    var updatedPoints := Scan(s.dataPoints, s.weights, s.bias);
    var misclassified := Misclassified(updatedPoints);
    ScanEmptyIffClassifies(s.dataPoints, s.weights, s.bias);
    if |misclassified| == 0 then
      s.(hasConverged := true)
    else
      ScanHeadMispredicts(s.dataPoints, s.weights, s.bias);
      UpdateAppends(s, misclassified[0], |misclassified|);
      Update(s, misclassified[0], |misclassified|)
  }

  /** The tie-break: the step always uses the lowest-index misclassified
      point, and records how many points were misclassified before it. */
  lemma StepUsesFirstMisclassified(s: TrainerState, i: nat)
    requires i < |s.dataPoints| && Mispredicts(s.weights, s.bias, s.dataPoints[i])
    requires forall j :: 0 <= j < i ==> !Mispredicts(s.weights, s.bias, s.dataPoints[j])
    ensures var rec := Step(s).trainingHistory[|s.trainingHistory|];
            rec.point == s.dataPoints[i].(misclassified := true) &&
            rec.misclassifiedCount == |MisIndices(s.dataPoints, s.weights, s.bias)|
  {
    var q := Scan(s.dataPoints, s.weights, s.bias);
    MisclassifiedFirst(q, i);
    MisclassifiedCountIsMisIndices(s.dataPoints, s.weights, s.bias);
  }

  /** Once nothing is misclassified, stepping again changes nothing. */
  lemma ConvergedStepIdempotent(s: TrainerState)
    requires Classifies(s.weights, s.bias, s.dataPoints)
    ensures Step(s).hasConverged
    ensures Step(Step(s)) == Step(s)
  {
  }

  /** A zero learning rate is accepted: the step still records an update,
      but the parameters do not move. */
  lemma ZeroRateRecordsWithoutMoving(s: TrainerState)
    requires s.learningRate == 0.0
    requires !Classifies(s.weights, s.bias, s.dataPoints)
    ensures Step(s).weights == s.weights && Step(s).bias == s.bias
    ensures |Step(s).trainingHistory| == |s.trainingHistory| + 1
  {
  }

  // ---------------------------------------------------------------------
  // The state invariant

  /** The bookkeeping every updating record satisfies. */
  predicate RecordWellFormed(rec: TrainingStep)
  {
    && rec.misclassifiedCount >= 1
    && (rec.error == 2 || rec.error == -2)
    && rec.point.misclassified
    && rec.calculatedOutput == Flip(rec.point.classLabel)
    && rec.error == rec.point.classLabel - rec.calculatedOutput
  }

  /** One record and one trajectory entry per epoch. */
  predicate CountersAgree(s: TrainerState)
  {
    && |s.trainingHistory| == s.currentEpoch
    && |s.weightHistory| == s.currentEpoch
  }

  /** The calculations panel follows the newest record: currentStep indexes
      the last record (or is -1 with no records). Reset and stepping keep
      this; picking an older step in the history strip breaks it. */
  predicate Focused(s: TrainerState)
  {
    s.currentStep == s.currentEpoch - 1
  }

  /** Records are numbered 0, 1, ... and trajectory entries 1, 2, ..., each
      entry holding the weights its record ended with. */
  predicate HistoriesNumbered(th: seq<TrainingStep>, wh: seq<WeightHistoryPoint>)
  {
    && (forall k :: 0 <= k < |th| ==> th[k].epoch == k && RecordWellFormed(th[k]))
    && (forall k :: 0 <= k < |wh| ==> wh[k].epoch == k + 1)
    && (forall k :: 0 <= k < |wh| && k < |th| ==>
          wh[k].w1 == th[k].newWeights.0 && wh[k].w2 == th[k].newWeights.1)
  }

  /** Each record starts where the previous one ended, and the last one
      ends at the current parameters. */
  predicate HistoryChained(th: seq<TrainingStep>, w: (real, real), b: real)
  {
    && (forall k :: 0 < k < |th| ==>
          th[k].oldWeights == th[k - 1].newWeights && th[k].oldBias == th[k - 1].newBias)
    && (|th| > 0 ==> th[|th| - 1].newWeights == w && th[|th| - 1].newBias == b)
  }

  /** The trainer's bookkeeping invariant; the converged flag is only ever
      set truthfully. */
  predicate Inv(s: TrainerState)
  {
    && CountersAgree(s)
    && HistoriesNumbered(s.trainingHistory, s.weightHistory)
    && HistoryChained(s.trainingHistory, s.weights, s.bias)
    && (s.hasConverged ==> Classifies(s.weights, s.bias, s.dataPoints))
  }

  lemma AppendKeepsPrefix<T>(a: seq<T>, r: seq<T>, k: int)
    requires |r| == |a| + 1 && r[..|a|] == a && 0 <= k < |a|
    ensures r[k] == a[k]
  {
    assert r[..|a|][k] == r[k];
  }

  lemma AppendsUpdateNumbered(s: TrainerState, r: TrainerState)
    requires Inv(s) && AppendsUpdate(s, r)
    ensures HistoriesNumbered(r.trainingHistory, r.weightHistory)
  {
    var n := |s.trainingHistory|;
    forall k | 0 <= k < n
      ensures r.trainingHistory[k] == s.trainingHistory[k]
      ensures r.weightHistory[k] == s.weightHistory[k]
    {
      AppendKeepsPrefix(s.trainingHistory, r.trainingHistory, k);
      AppendKeepsPrefix(s.weightHistory, r.weightHistory, k);
    }
  }

  lemma AppendsUpdateChained(s: TrainerState, r: TrainerState)
    requires Inv(s) && AppendsUpdate(s, r)
    ensures HistoryChained(r.trainingHistory, r.weights, r.bias)
  {
    var n := |s.trainingHistory|;
    forall k | 0 <= k < n
      ensures r.trainingHistory[k] == s.trainingHistory[k]
    {
      AppendKeepsPrefix(s.trainingHistory, r.trainingHistory, k);
    }
  }

  lemma StepPreservesInv(s: TrainerState)
    requires Inv(s)
    ensures Inv(Step(s))
  {
    var r := Step(s);
    if !Classifies(s.weights, s.bias, s.dataPoints) {
      AppendsUpdateNumbered(s, r);
      AppendsUpdateChained(s, r);
    }
  }

  lemma StepPreservesInvWhenHeld(s: TrainerState)
    ensures Inv(s) ==> Inv(Step(s))
  {
    if Inv(s) {
      StepPreservesInv(s);
    }
  }

  // ---------------------------------------------------------------------
  // The step calculations panel and the history strip

  /** What the "Step N Calculations" panel shows: the record at currentStep
      when that is a valid index, otherwise nothing. */
  datatype Panel = Hidden | Shows(rec: TrainingStep)

  function PanelOf(s: TrainerState): (p: Panel)
    ensures p.Shows? <==> 0 <= s.currentStep < |s.trainingHistory|
    ensures p.Shows? ==> p.rec in s.trainingHistory
  {
    if 0 <= s.currentStep < |s.trainingHistory| then Shows(s.trainingHistory[s.currentStep])
    else Hidden
  }

  /** A click on history button idx (the strip only exists with two or more
      records): the panel switches to that record and nothing else changes. */
  function SelectStep(s: TrainerState, idx: int): (r: TrainerState)
    requires |s.trainingHistory| > 1 && 0 <= idx < |s.trainingHistory|
    ensures PanelOf(r) == Shows(s.trainingHistory[idx])
    ensures r.(currentStep := s.currentStep) == s
    ensures Inv(s) ==> Inv(r)
    ensures Inv(s) ==> (Focused(r) <==> idx == |s.trainingHistory| - 1)
  {
    s.(currentStep := idx)
  }

  /** While focused, the panel shows the newest record. */
  lemma FocusedShowsNewest(s: TrainerState)
    requires Inv(s) && Focused(s) && |s.trainingHistory| > 0
    ensures PanelOf(s) == Shows(s.trainingHistory[|s.trainingHistory| - 1])
  {
  }

  /** An updating step keeps the panel on the newest record. */
  lemma StepKeepsFocus(s: TrainerState)
    requires Inv(s) && Focused(s) && !Classifies(s.weights, s.bias, s.dataPoints)
    ensures Focused(Step(s))
    ensures PanelOf(Step(s)) == Shows(Step(s).trainingHistory[|s.trainingHistory|])
  {
    assert AppendsOneRecord(s, Step(s));
  }

  /** After the user picks an older step, the next step moves the panel to
      the record after the picked one, not to the record it just added:
      currentStep is bumped relative to the selection. */
  lemma StepAfterSelectShowsOlderRecord(s: TrainerState, idx: int)
    requires Inv(s) && |s.trainingHistory| > 1 && 0 <= idx < |s.trainingHistory| - 1
    requires !Classifies(s.weights, s.bias, s.dataPoints)
    ensures var r := Step(SelectStep(s, idx));
            && PanelOf(r) == Shows(s.trainingHistory[idx + 1])
            && idx + 1 < |r.trainingHistory| - 1
  {
    var t := SelectStep(s, idx);
    assert t.weights == s.weights && t.bias == s.bias && t.dataPoints == s.dataPoints;
    var r := Step(t);
    assert AppendsOneRecord(t, r);
    AppendKeepsPrefix(t.trainingHistory, r.trainingHistory, idx + 1);
  }

  // ---------------------------------------------------------------------
  // Auto-training, reset and regenerate

  /** A record of one application of the perceptron rule at the given rate:
      its point was mispredicted by its old parameters, which moved by
      rate * error * (x, y, 1). */
  predicate RuleRecord(rec: TrainingStep, rate: real)
  {
    && Mispredicts(rec.oldWeights, rec.oldBias, rec.point)
    && rec.error == rec.point.classLabel - Output(rec.oldWeights, rec.oldBias, rec.point.x, rec.point.y)
    && rec.newWeights.0 == rec.oldWeights.0 + rate * (rec.error as real) * rec.point.x
    && rec.newWeights.1 == rec.oldWeights.1 + rate * (rec.error as real) * rec.point.y
    && rec.newBias == rec.oldBias + rate * (rec.error as real)
  }

  /** The records from index `from` on are a chain of rule applications
      leading from (w0, b0) to (w, b); with no such record, the parameters
      did not move. */
  predicate RunFrom(th: seq<TrainingStep>, from: nat, w0: (real, real), b0: real,
                    w: (real, real), b: real, rate: real)
  {
    && from <= |th|
    && (forall k :: from <= k < |th| ==> RuleRecord(th[k], rate))
    && (forall k :: from < k < |th| ==>
          th[k].oldWeights == th[k - 1].newWeights && th[k].oldBias == th[k - 1].newBias)
    && (|th| == from ==> w == w0 && b == b0)
    && (|th| > from ==>
          && th[from].oldWeights == w0 && th[from].oldBias == b0
          && th[|th| - 1].newWeights == w && th[|th| - 1].newBias == b)
  }

  /** A rule record at index `from`, starting at (w0, b0), in front of a run
      that starts at its new parameters extends that run. */
  lemma RunPrepend(th: seq<TrainingStep>, from: nat, w0: (real, real), b0: real,
                   w: (real, real), b: real, rate: real)
    requires from < |th| && RuleRecord(th[from], rate)
    requires th[from].oldWeights == w0 && th[from].oldBias == b0
    requires RunFrom(th, from + 1, th[from].newWeights, th[from].newBias, w, b, rate)
    ensures RunFrom(th, from, w0, b0, w, b, rate)
  {
  }

  /** j is the lowest index whose point the parameters get wrong. */
  predicate FirstWrong(data: seq<DataPoint>, w: (real, real), b: real, j: int)
  {
    && 0 <= j < |data|
    && Mispredicts(w, b, data[j])
    && forall i :: 0 <= i < j ==> !Mispredicts(w, b, data[i])
  }

  /** The record's point is a flagged copy of the first dataset point its
      old parameters get wrong. */
  predicate FirstOnData(rec: TrainingStep, data: seq<DataPoint>)
  {
    exists j :: 0 <= j < |data| && FirstWrong(data, rec.oldWeights, rec.oldBias, j) &&
                rec.point == data[j].(misclassified := true)
  }

  /** Every record from index `from` on was chosen from the dataset by the
      first-violator rule. */
  predicate OnData(th: seq<TrainingStep>, from: nat, data: seq<DataPoint>)
  {
    forall k :: from <= k < |th| ==> FirstOnData(th[k], data)
  }

  /** Some point is wrong, so some point is the first wrong one; the search
      starts at k, below which every point is right. */
  lemma {:induction false} FirstWrongFrom(data: seq<DataPoint>, w: (real, real), b: real, k: nat, bad: nat)
    requires k <= bad < |data| && Mispredicts(w, b, data[bad])
    requires forall i :: 0 <= i < k ==> !Mispredicts(w, b, data[i])
    ensures exists j :: FirstWrong(data, w, b, j)
    decreases bad - k
  {
    if Mispredicts(w, b, data[k]) {
      assert FirstWrong(data, w, b, k);
    } else {
      FirstWrongFrom(data, w, b, k + 1, bad);
    }
  }

  /** An updating step records the first point its parameters get wrong. */
  lemma StepFirstOnData(s: TrainerState)
    requires !Classifies(s.weights, s.bias, s.dataPoints)
    ensures |s.trainingHistory| < |Step(s).trainingHistory|
    ensures FirstOnData(Step(s).trainingHistory[|s.trainingHistory|], s.dataPoints)
  {
    var bad :| 0 <= bad < |s.dataPoints| && Mispredicts(s.weights, s.bias, s.dataPoints[bad]);
    FirstWrongFrom(s.dataPoints, s.weights, s.bias, 0, bad);
    var j :| FirstWrong(s.dataPoints, s.weights, s.bias, j);
    StepUsesFirstMisclassified(s, j);
    var rec := Step(s).trainingHistory[|s.trainingHistory|];
    assert rec.oldWeights == s.weights && rec.oldBias == s.bias;
    assert FirstWrong(s.dataPoints, rec.oldWeights, rec.oldBias, j);
  }

  /** A first-violator record at index `from` in front of such records. */
  lemma OnDataPrepend(th: seq<TrainingStep>, from: nat, data: seq<DataPoint>)
    requires from < |th| && FirstOnData(th[from], data)
    requires OnData(th, from + 1, data)
    ensures OnData(th, from, data)
  {
  }

  /** The record an updating step appends is a rule record leading from the
      step's old parameters to its new ones. */
  lemma AppendedRuleRecord(s: TrainerState, next: TrainerState)
    requires AppendsUpdate(s, next)
    ensures |s.trainingHistory| < |next.trainingHistory|
    ensures var rec := next.trainingHistory[|s.trainingHistory|];
      && RuleRecord(rec, s.learningRate)
      && rec.oldWeights == s.weights && rec.oldBias == s.bias
      && rec.newWeights == next.weights && rec.newBias == next.bias
  {
  }

  /** One updating step in front of a run of rule applications is again a
      run of rule applications, from the earlier state. */
  lemma StepExtendsRun(s: TrainerState, next: TrainerState, r: TrainerState)
    requires AppendsUpdate(s, next)
    requires |next.trainingHistory| <= |r.trainingHistory|
    requires r.trainingHistory[..|next.trainingHistory|] == next.trainingHistory
    requires RunFrom(r.trainingHistory, |next.trainingHistory|, next.weights, next.bias,
                     r.weights, r.bias, next.learningRate)
    requires FirstOnData(next.trainingHistory[|s.trainingHistory|], s.dataPoints)
    requires OnData(r.trainingHistory, |next.trainingHistory|, next.dataPoints)
    ensures RunFrom(r.trainingHistory, |s.trainingHistory|, s.weights, s.bias,
                    r.weights, r.bias, s.learningRate)
    ensures OnData(r.trainingHistory, |s.trainingHistory|, s.dataPoints)
  {
    AppendedRuleRecord(s, next);
    var i := |s.trainingHistory|;
    assert |next.trainingHistory| == i + 1 && next.learningRate == s.learningRate;
    assert r.trainingHistory[i] == r.trainingHistory[..|next.trainingHistory|][i];
    RunPrepend(r.trainingHistory, i, s.weights, s.bias, r.weights, r.bias, s.learningRate);
    OnDataPrepend(r.trainingHistory, i, s.dataPoints);
  }

  /** A prefix of a prefix is a prefix. */
  lemma PrefixTransitive<T>(a: seq<T>, b: seq<T>, c: seq<T>)
    requires |a| <= |b| <= |c| && c[..|b|] == b && b[..|a|] == a
    ensures c[..|a|] == a
  {
    assert c[..|a|] == c[..|b|][..|a|];
  }

  /** autoTrain as a synchronous loop: at most n steps, stopping early once
      a step has found nothing misclassified. */
  function AutoTrain(s: TrainerState, n: nat): (r: TrainerState)
    ensures r.dataPoints == s.dataPoints && r.learningRate == s.learningRate
    ensures |s.trainingHistory| <= |r.trainingHistory| <= |s.trainingHistory| + n
    ensures r.trainingHistory[..|s.trainingHistory|] == s.trainingHistory
    ensures !r.hasConverged ==> |r.trainingHistory| == |s.trainingHistory| + n
    ensures r.hasConverged ==> s.hasConverged || Classifies(r.weights, r.bias, r.dataPoints)
    ensures RunFrom(r.trainingHistory, |s.trainingHistory|, s.weights, s.bias,
                    r.weights, r.bias, s.learningRate)
    ensures OnData(r.trainingHistory, |s.trainingHistory|, s.dataPoints)
    ensures Inv(s) ==> Inv(r)
    decreases n
  {
    if n == 0 || s.hasConverged then s
    else
      StepPreservesInvWhenHeld(s);
      var next := Step(s);
      var r := AutoTrain(next, n - 1);
      PrefixTransitive(s.trainingHistory, next.trainingHistory, r.trainingHistory);
      if Classifies(s.weights, s.bias, s.dataPoints) then r
      else StepFirstOnData(s); StepExtendsRun(s, next, r); r
  }

  /** resetTraining: fresh random weights and bias, empty histories; the
      dataset and learning rate are kept. */
  function Reset(s: TrainerState, d: InitDraw): (r: TrainerState)
    ensures Inv(r) && Focused(r) && PanelOf(r) == Hidden
    ensures r.currentEpoch == 0 && !r.hasConverged && r.trainingHistory == [] && r.weightHistory == []
    ensures r.dataPoints == s.dataPoints && r.learningRate == s.learningRate
    ensures InitDrawValid(d) ==>
              -1.0 <= r.weights.0 < 1.0 && -1.0 <= r.weights.1 < 1.0 && -1.0 <= r.bias < 1.0
  {
    s.(weights := (Spread(d.rw1), Spread(d.rw2)),
       bias := Spread(d.rb),
       currentEpoch := 0,
       trainingHistory := [],
       weightHistory := [],
       hasConverged := false,
       currentStep := -1)
  }

  /** generateData: a fresh dataset for the selected problem, then the same
      re-initialisation as reset. */
  function GenerateData(s: TrainerState, problem: ProblemType, numPoints: int, noiseLevel: real,
                        sep: SeparatorDraw, draws: seq<PointDraw>, d: InitDraw): (r: TrainerState)
    requires problem == Random ==> numPoints <= |draws|
    ensures Inv(r) && Focused(r) && PanelOf(r) == Hidden
    ensures r.dataPoints == GenerateProblemData(problem, numPoints, noiseLevel, sep, draws)
    ensures r.currentEpoch == 0 && !r.hasConverged && r.trainingHistory == [] && r.weightHistory == []
    ensures r.learningRate == s.learningRate
    ensures InitDrawValid(d) ==>
              -1.0 <= r.weights.0 < 1.0 && -1.0 <= r.weights.1 < 1.0 && -1.0 <= r.bias < 1.0
    ensures r == Reset(s, d).(dataPoints := r.dataPoints)
  {
    Reset(s.(dataPoints := GenerateProblemData(problem, numPoints, noiseLevel, sep, draws)), d)
  }

  /** The state after mounting: the first render's state regenerated with the
      default controls, so 20 noiseless random points the hidden separator
      classifies. */
  function Mounted(sep: SeparatorDraw, draws: seq<PointDraw>, d: InitDraw): (r: TrainerState)
    requires DefaultNumPoints <= |draws|
    ensures Inv(r) && Focused(r) && PanelOf(r) == Hidden
    ensures |r.dataPoints| == 20 && r.learningRate == 0.1
    ensures InitDrawValid(d) ==>
              -1.0 <= r.weights.0 < 1.0 && -1.0 <= r.weights.1 < 1.0 && -1.0 <= r.bias < 1.0
    ensures Classifies(HiddenWeights(sep), HiddenBias(sep), r.dataPoints)
  {
    NoNoiseSeparable(DefaultNumPoints, sep, draws);
    GenerateData(Initial, Random, DefaultNumPoints, DefaultNoiseLevel, sep, draws, d)
  }

  // ---------------------------------------------------------------------
  // The drawn decision boundary

  /** getLinePoints of the Training Lab: the segment of the boundary over
      x in [-1.2, 1.2], or the fixed horizontal segment when w2 is exactly 0. */
  function LinePoints(w: (real, real), b: real): (seg: Segment)
    ensures w.1 == 0.0 ==> seg == Segment(-1.0, 0.0, 1.0, 0.0)
    ensures w.1 != 0.0 ==> seg.x1 == -1.2 && seg.x2 == 1.2
    ensures w.1 != 0.0 ==> OnBoundary(w, b, seg.x1, seg.y1) && OnBoundary(w, b, seg.x2, seg.y2)
  {
    if w.1 == 0.0 then Segment(-1.0, 0.0, 1.0, 0.0)
    else
      var x1 := -1.2;
      var y1 := (-w.0 * x1 - b) / w.1;
      var x2 := 1.2;
      var y2 := (-w.0 * x2 - b) / w.1;
      Segment(x1, y1, x2, y2)
  }

  /** The w2 = 0 fallback is not the boundary: unless w1 is also 0, its two
      endpoints are not both on the line w1*x + b = 0. */
  lemma FallbackSegmentOffBoundary(w: (real, real), b: real)
    requires w.1 == 0.0 && w.0 != 0.0
    ensures var seg := LinePoints(w, b);
            !(OnBoundary(w, b, seg.x1, seg.y1) && OnBoundary(w, b, seg.x2, seg.y2))
  {
  }
}

=== FILE: weight_plot.dfy ===
/** The weight-space trajectory chart (components/weight-trajectory-plot.tsx):
    axis bounds padded by 1 around every plotted weight, the two scaling
    maps into a 350 x 250 box, the trajectory path and the point opacity. */
module WeightPlot {
  import opened Charts
  import opened Trainer

  const W: real := 350.0
  const H: real := 250.0

  /** The padded lower bound and range of each axis. */
  datatype Scales = Scales(minW1: real, rangeW1: real, minW2: real, rangeW2: real)

  /** allW1: every history w1, then the current w1. */
  function AllW1(history: seq<WeightHistoryPoint>, current: (real, real)): (vs: seq<real>)
    ensures |vs| == |history| + 1 && vs[|history|] == current.0
    ensures forall i :: 0 <= i < |history| ==> vs[i] == history[i].w1
  {
    seq(|history|, i requires 0 <= i < |history| => history[i].w1) + [current.0]
  }

  /** allW2: every history w2, then the current w2. */
  function AllW2(history: seq<WeightHistoryPoint>, current: (real, real)): (vs: seq<real>)
    ensures |vs| == |history| + 1 && vs[|history|] == current.1
    ensures forall i :: 0 <= i < |history| ==> vs[i] == history[i].w2
  {
    seq(|history|, i requires 0 <= i < |history| => history[i].w2) + [current.1]
  }

  /** The useMemo block: min - 1 and (max + 1) - (min - 1) per axis. Every
      plotted value lies strictly inside (min, min + range), and each range
      is at least 2. */
  function ComputeScales(history: seq<WeightHistoryPoint>, current: (real, real)): (sc: Scales)
    ensures sc.rangeW1 >= 2.0 && sc.rangeW2 >= 2.0
    ensures forall v :: v in AllW1(history, current) ==> sc.minW1 < v < sc.minW1 + sc.rangeW1
    ensures forall v :: v in AllW2(history, current) ==> sc.minW2 < v < sc.minW2 + sc.rangeW2
  {
    var all1 := AllW1(history, current);
    var all2 := AllW2(history, current);
    var minW1 := SeqMin(all1) - 1.0;
    var maxW1 := SeqMax(all1) + 1.0;
    var minW2 := SeqMin(all2) - 1.0;
    var maxW2 := SeqMax(all2) + 1.0;
    Scales(minW1, maxW1 - minW1, minW2, maxW2 - minW2)
  }

  /** scaleX: w1 to a horizontal pixel. */
  function ScaleX(sc: Scales, w: real): (x: real)
    requires sc.rangeW1 > 0.0
    ensures sc.minW1 < w < sc.minW1 + sc.rangeW1 ==> 0.0 < x < W
  {
    var x := (w - sc.minW1) / sc.rangeW1 * W;
    // both branches yield the same value; the first only brings the range
    // lemma into scope for the ensures
    if sc.minW1 < w < sc.minW1 + sc.rangeW1 then FractionInUnit(w - sc.minW1, sc.rangeW1); x else x
  }

  /** scaleY: w2 to a vertical pixel, larger w2 higher up. */
  function ScaleY(sc: Scales, w: real): (y: real)
    requires sc.rangeW2 > 0.0
    ensures sc.minW2 < w < sc.minW2 + sc.rangeW2 ==> 0.0 < y < H
  {
    var y := H - (w - sc.minW2) / sc.rangeW2 * H;
    // both branches yield the same value; the first only brings the range
    // lemma into scope for the ensures
    if sc.minW2 < w < sc.minW2 + sc.rangeW2 then FractionInUnit(w - sc.minW2, sc.rangeW2); y else y
  }

  /** Every plotted w1 maps strictly inside (0, W) and every plotted w2
      strictly inside (0, H). */
  lemma PlottedPointsInsideBox(history: seq<WeightHistoryPoint>, current: (real, real))
    ensures var sc := ComputeScales(history, current);
            && (forall v :: v in AllW1(history, current) ==> 0.0 < ScaleX(sc, v) < W)
            && (forall v :: v in AllW2(history, current) ==> 0.0 < ScaleY(sc, v) < H)
  {
    var sc := ComputeScales(history, current);
    forall v | v in AllW1(history, current)
      ensures 0.0 < ScaleX(sc, v) < W
    {
      FractionInUnit(v - sc.minW1, sc.rangeW1);
    }
    forall v | v in AllW2(history, current)
      ensures 0.0 < ScaleY(sc, v) < H
    {
      FractionInUnit(v - sc.minW2, sc.rangeW2);
    }
  }

  /** scaleX is strictly increasing and scaleY strictly decreasing. */
  lemma ScalesMonotone(sc: Scales, a: real, b: real)
    requires sc.rangeW1 > 0.0 && sc.rangeW2 > 0.0
    requires a < b
    ensures ScaleX(sc, a) < ScaleX(sc, b)
    ensures ScaleY(sc, a) > ScaleY(sc, b)
  {
    FractionMonotone(a - sc.minW1, b - sc.minW1, sc.rangeW1);
    FractionMonotone(a - sc.minW2, b - sc.minW2, sc.rangeW2);
  }

  /** The trajectory path: empty for no history, else a move to the first
      weights and one line to each later entry, in history order. */
  function Path(history: seq<WeightHistoryPoint>, current: (real, real)): (cmds: seq<PathCommand>)
    ensures |cmds| == |history|
    ensures IsPolyline(cmds)
    ensures var sc := ComputeScales(history, current);
            forall i :: 0 <= i < |cmds| ==>
              cmds[i].x == ScaleX(sc, history[i].w1) && cmds[i].y == ScaleY(sc, history[i].w2)
  {
    var sc := ComputeScales(history, current);
    seq(|history|, i requires 0 <= i < |history| =>
          if i == 0 then MoveTo(ScaleX(sc, history[i].w1), ScaleY(sc, history[i].w2))
          else LineTo(ScaleX(sc, history[i].w1), ScaleY(sc, history[i].w2)))
  }

  /** The opacity of the i-th history dot: i / n, in [0, 1). */
  function Opacity(i: nat, n: nat): (o: real)
    requires i < n
    ensures 0.0 <= o < 1.0
  {
    i as real / n as real
  }
}

=== FILE: xor.dfy ===
/** The XOR illustration (components/xor-problem.tsx): the four-point XOR
    table and the claim that no line separates it, so the Training Lab's
    trainer never converges on it. */
module Xor {
  import opened Perceptron
  import opened Datasets
  import opened Trainer

  /** xorData: +1 exactly when one coordinate is 1. */
  const XorData: seq<Sample> := [
    Sample(0.0, 0.0, -1), Sample(1.0, 0.0, 1),
    Sample(0.0, 1.0, 1), Sample(1.0, 1.0, -1)
  ]

  lemma XorLabelsAreExclusiveOr()
    ensures |XorData| == 4
    ensures forall i :: 0 <= i < |XorData| ==>
              (XorData[i].x == 0.0 || XorData[i].x == 1.0) && (XorData[i].y == 0.0 || XorData[i].y == 1.0)
    ensures forall i :: 0 <= i < |XorData| ==>
              (XorData[i].classLabel == 1 <==> ((XorData[i].x == 1.0) != (XorData[i].y == 1.0)))
  {
  }

  lemma XorBalanced()
    ensures LabelCount(XorData, 1) == 2 && LabelCount(XorData, -1) == 2
  {
  }

  /** "No line exists": whatever w1, w2 and b, the strict threshold gets at
      least one of the four points wrong. */
  lemma XorNotSeparable(w: (real, real), b: real)
    ensures !Separates(w, b, XorData)
  {
    // Whichever of the first three points is predicted right, the fourth
    // is then forced wrong: b <= 0, w1 + b > 0 and w2 + b > 0 give
    // w1 + w2 + b > -b >= 0.
    if Output(w, b, 0.0, 0.0) != -1 {
      assert Output(w, b, XorData[0].x, XorData[0].y) != XorData[0].classLabel;
    } else if Output(w, b, 1.0, 0.0) != 1 {
      assert Output(w, b, XorData[1].x, XorData[1].y) != XorData[1].classLabel;
    } else if Output(w, b, 0.0, 1.0) != 1 {
      assert Output(w, b, XorData[2].x, XorData[2].y) != XorData[2].classLabel;
    } else {
      assert w.0 * 1.0 + w.1 * 1.0 + b > 0.0;
      assert Output(w, b, XorData[3].x, XorData[3].y) != XorData[3].classLabel;
    }
  }

  /** The XOR table as a Training Lab dataset. */
  const XorPoints: seq<DataPoint> := FromSamples(XorData)

  /** Every step on the XOR points updates: it never finds zero errors. */
  lemma XorStepAlwaysUpdates(s: TrainerState)
    requires s.dataPoints == XorPoints
    ensures AppendsUpdate(s, Step(s))
    ensures Step(s).hasConverged == s.hasConverged
  {
    XorNotSeparable(s.weights, s.bias);
    ClassifiesIffSeparates(s.weights, s.bias, XorData);
  }

  /** autoTrain(n) on the XOR points performs exactly n updates and never
      sets the converged flag. */
  lemma XorAutoTrainRunsAllSteps(s: TrainerState, n: nat)
    requires s.dataPoints == XorPoints && !s.hasConverged
    ensures !AutoTrain(s, n).hasConverged
    ensures |AutoTrain(s, n).trainingHistory| == |s.trainingHistory| + n
  {
    var r := AutoTrain(s, n);
    XorNotSeparable(r.weights, r.bias);
    ClassifiesIffSeparates(r.weights, r.bias, XorData);
  }
}
